=== FILE: README.md ===
# file_tree_diff core in Dafny

A model of the two pure algorithms of `file_tree_diff.py`: the tree-listing parser `parse_tree` and the recursive hierarchy comparison `diff_trees`. The model proves their contracts.

- **Text** (`text.dfy`) is the part of Python's `str` that the parser uses:
  - `strip` and `rstrip`, with and without an explicit character set;
  - the whitespace set of `str.isspace`;
  - the blank-line test `not line.strip()`;
  - `splitlines`.
- **Tree** (`tree.dfy`) is the hierarchy.
  - A folder is `Dir(children)`, a map from names to nodes; a file is `File`. Python uses a `dict` and `None`.
  - `InsertAt` writes one child into the folder found at a path.
- **Parser** (`parser.dfy`) is `parse_tree`.
  - Each line is read into an `Entry`: its level, its stored name and its folder flag.
  - The entries are then stored one by one into a state. The state holds the root folder and a stack of open frames.
  - Python's stack holds aliased dicts. Here a frame holds its depth and its folder's path from the root, and a write is a pure `InsertAt` at the top frame's path.
  - The two agree for two reasons. A write only goes into the top frame's folder. Every frame deeper than the written child was already popped on line 50, so no open frame is ever detached by an overwrite.
  - The state invariant `Valid` says:
    - the root frame `(0, [])` is at the bottom of the stack;
    - depths strictly increase up the stack;
    - each frame's path extends the path of every frame below it;
    - every frame names a folder;
    - no stored name ends in `/`.
- **Differ** (`differ.dfy`) is `diff_trees`.
  - Its partners are `Flip`, which swaps the two sides, and `Patch`, which applies a diff to its baseline.
  - The lemmas relate `Diff` to each partner.
- **Render** (`render.dfy`) is a reference renderer for the listing format. It is the parser's partner.
  - The format is `├── ` or `└── ` connectors, four indentation characters per level, and a trailing `/` on folders.
  - `ParseListing` proves that parsing the rendered text of any hierarchy gives that hierarchy back, under its root name. This holds for every hierarchy whose names the format can carry.

## Model

| member | source | states |
|---|---|---|
| Text.StripEnd | file_tree_diff.py:45 | `rstrip(cs)` gives a prefix of the input that does not end in `cs`, and everything removed was in `cs` |
| Text.Strip | file_tree_diff.py:40 | `strip(cs)` gives a string no longer than the input that neither starts nor ends with a character of `cs` |
| Text.StripFixed | file_tree_diff.py:40-45 | a string that does not end in `cs` is its own `rstrip(cs)`, one that does not start in `cs` is its own `lstrip(cs)`, and one that does neither is its own `strip(cs)` |
| Text.StripSlice | file_tree_diff.py:40 | `strip(cs)` returns a slice `s[i..j]` of its input, and every character cut off before `i` or after `j` is in `cs` |
| Text.StripTwiceSlice | file_tree_diff.py:25-26 | two strips in a row return nested slices `s[i..j]` and `s[a..b]`; outside `s[i..j]` only characters of the first set were cut, between the two slices only characters of the second set |
| Text.BlankIffStripsToEmpty | file_tree_diff.py:20 | a line is dropped as blank exactly when stripping its whitespace leaves nothing |
| Text.SplitLines | file_tree_diff.py:20 | splitting gives at least one piece, and no piece contains a line-boundary character |
| Text.SplitAtBreak | file_tree_diff.py:20 | a line-boundary character separates the pieces: splitting `a + [c] + b` gives the pieces of `a` followed by the pieces of `b` |
| Text.SplitNoBreak | file_tree_diff.py:20 | text without a line-boundary character is one piece, itself |
| Text.SplitJoin | file_tree_diff.py:20 | splitting the `\n`-join of a non-empty list of lines that contain no boundary character gives those lines back |
| Text.KeepNonBlank | file_tree_diff.py:20 | the kept lines are non-empty and do not end in whitespace, and there are no more of them than input lines |
| Text.KeepNonBlankOne | file_tree_diff.py:20 | a single line is dropped when `line.strip()` is empty and otherwise kept as `line.rstrip()` |
| Text.KeepNonBlankAppend | file_tree_diff.py:20 | the filter works line by line and keeps the order: the kept lines of `a + b` are those of `a` followed by those of `b` |
| Text.KeepNonBlankFixed | file_tree_diff.py:20 | lines that are already non-blank and right-trimmed are kept unchanged and in order |
| Text.WhitespaceHasNoLines | file_tree_diff.py:20-21 | text made only of whitespace has no non-blank line |
| Tree.Lookup | file_tree_diff.py:52 | the empty path finds the node itself, and a non-empty path finds nothing below a file |
| Tree.ReplaceAt | file_tree_diff.py:54-57 | after the replacement the path finds the new node, and for a non-empty path the outermost folder keeps its names |
| Tree.LookupReplaceAt | file_tree_diff.py:54-57 | after a replacement, paths through the replaced node see the new subtree, strict prefixes see folders, and unrelated paths see the old tree |
| Tree.ReplaceSame | file_tree_diff.py:54-57 | replacing a node by itself changes nothing |
| Tree.ReplaceTwice | file_tree_diff.py:54-57 | of two replacements at the same path, the later one wins |
| Tree.InsertAt | file_tree_diff.py:53-57 | `parent[name] = child` stores the child at `parent + [name]`, and the parent stays a folder |
| Tree.InsertAtLookup | file_tree_diff.py:53-57 | after `parent[name] = child`, the child is at its path, every strict prefix is a folder, and every unrelated path is unchanged |
| Parser.IndentWidth | file_tree_diff.py:34-35 | the width of the group `^([ │]+)`: every character before it is a space or `│`, and the character at it is neither |
| Parser.ConnectorRegexIsMaximal | file_tree_diff.py:39 | the regex `^[ │]*(├── \|└── )` matches a prefix of length `j + 4` exactly when a connector follows the whole indentation run and `j` is its width |
| Parser.StripConnectorMeans | file_tree_diff.py:39 | `re.sub` removes the prefix the regex `^[ │]*(├── \|└── )` matches, wherever it matches, and leaves a line it does not match unchanged |
| Parser.ParseEntry | file_tree_diff.py:40-47 | no stored entry name ends in `/` |
| Parser.ParseEntryMeans | file_tree_diff.py:34-47 | the level is the indentation width divided by four; the entry is a folder exactly when its trimmed name ends in `/`; the stored name is the trimmed name with every trailing `/` removed |
| Parser.RootName | file_tree_diff.py:25-26 | the root name is no longer than the line and neither starts nor ends with `/` |
| Parser.RootNameSlice | file_tree_diff.py:25-26 | the root name is a slice `line[a..b]` of the line: `line.strip()` is `line[i..j]`, only whitespace lies outside it, and only `/` lies between it and the name |
| Parser.PopTo | file_tree_diff.py:50-51 | popping keeps a prefix of the stack whose top is shallower than `level + 1`, and every popped frame had depth at least `level + 1` |
| Parser.Initial | file_tree_diff.py:27-30 | the state after the root line, an empty root folder with only the frame `(0, [])` open, satisfies the invariant |
| Parser.Store | file_tree_diff.py:49-57 | storing one entry keeps the parser invariant `Valid` |
| Parser.StepKeepsValid | file_tree_diff.py:49-57 | popping, writing the entry into the top frame's folder, and pushing it when it is a folder keeps `Valid` |
| Parser.StorePlacesEntry | file_tree_diff.py:50-57 | the root frame is never popped, so the fallback on line 52 is never taken; the entry goes under the deepest open frame with depth at most its level; it is stored with its kind; a folder is pushed at depth `level + 1`; every path unrelated to the entry's path is unchanged |
| Parser.ReadEntriesAt | file_tree_diff.py:32-47 | each line reads as its own entry independently of the others, so no read entry name ends in `/` |
| Parser.Fold | file_tree_diff.py:32-57 | storing the entries one by one keeps `Valid`, with the root frame still at the bottom |
| Parser.FoldAppend | file_tree_diff.py:32 | storing `a + b` is storing `a`, then `b` |
| Parser.ParseLines | file_tree_diff.py:21-58 | no lines give the empty mapping; otherwise exactly one key, the first line's root name, maps to a folder, and no stored name anywhere ends in `/` |
| Parser.ParseTree | file_tree_diff.py:6-58 | `parse_tree`: empty when there is no non-blank line, otherwise one root folder named after the first non-blank line, with no stored name ending in `/` |
| Parser.WhitespaceParsesEmpty | file_tree_diff.py:20-22 | empty or whitespace-only text parses to `{}` |
| Parser.RootLineOnly | file_tree_diff.py:25-30 | a listing of only the root line gives `{root: {}}` |
| Parser.RootOnly | file_tree_diff.py:20-27 | a single non-blank line gives one empty root folder, and its trailing whitespace does not affect the root name |
| Parser.RootNameIgnoresTrailing | file_tree_diff.py:20-26 | right-trimming a line first does not change its root name |
| Differ.Diff | file_tree_diff.py:103-104 | every reported name is a name of one side or the other |
| Differ.DiffMeans | file_tree_diff.py:104-119 | a name only in the baseline is reported as Missing with its baseline subtree; a name only in the actual tree is reported as Extra with its actual subtree; a name on both sides is reported only when it is a folder on both sides, and then as Changed with its non-empty child diff |
| Differ.DiffSelf | file_tree_diff.py:103-120 | a hierarchy compared with itself has an empty diff |
| Differ.DiffAgainstEmpty | file_tree_diff.py:104-109 | against an empty actual hierarchy, every name is Missing with its whole subtree |
| Differ.DiffFromEmpty | file_tree_diff.py:104-111 | from an empty baseline, every name is Extra with its whole subtree |
| Differ.EmptyDiffIffMatches | file_tree_diff.py:103-120 | the diff is empty exactly when both sides have the same names at every level where both hold a folder |
| Differ.MatchesIffEqual | file_tree_diff.py:113-119 | when no name is a file on one side and a folder on the other, matching is equality |
| Differ.EmptyDiffIffEqual | file_tree_diff.py:103-120 | when no name has different kinds on the two sides, the diff is empty exactly for equal hierarchies |
| Differ.KindMismatchIsSilent | file_tree_diff.py:112-119 | a file on one side and a folder on the other is not reported: two different hierarchies with an empty diff |
| Differ.Flip | file_tree_diff.py:108-111 | swapping sides turns every Missing entry into Extra and every Extra entry into Missing, with the same names |
| Differ.FlipFlip | file_tree_diff.py:108-111 | swapping sides twice gives the diff back |
| Differ.DiffSwap | file_tree_diff.py:103-120 | comparing the other way round swaps Missing and Extra at every level |
| Differ.SwapAt | file_tree_diff.py:106-118 | the swap at a single name, given the swap for the children of folders on both sides |
| Differ.Patch | file_tree_diff.py:108-118 | applying a diff removes the Missing names, adds the Extra ones and keeps the rest |
| Differ.PatchDiff | file_tree_diff.py:108-118 | when kinds agree, applying the diff to the baseline rebuilds the actual hierarchy |
| Render.ParseRenderedLine | file_tree_diff.py:34-47 | a line made of indentation of width `4 * level`, a connector, a name the format can carry and, for a folder, a `/` reads back as that level, name and kind |
| Render.ParseListing | file_tree_diff.py:6-58 | the rendered listing of any hierarchy whose names the format can carry parses back to that hierarchy under its root name |
| Render.StoreItems | file_tree_diff.py:49-57 | storing a folder's rendered entries below an open frame adds exactly those entries, with their subtrees, to that frame's folder, and leaves the frames below it as they were |
| Render.ListingReadsBack | file_tree_diff.py:20 | splitting and trimming the joined listing gives back its lines |

## Left out

- `build_actual_tree` (file_tree_diff.py:60-88) is left out. It walks the filesystem with `os.walk` and prints a warning. Its result has the same shape as `Tree.Node`, and the differ is modelled for any such hierarchy.
- `print_diff` (file_tree_diff.py:122-143) and `main` (file_tree_diff.py:145-197) are console output, argument parsing, file reading and JSON dumps. They are left out.
- The `sorted(all_keys)` order on line 105 only changes the insertion order of Python's result dict. Diffs are modelled as unordered maps. The renderer lists a folder's names in an arbitrary order, `Render.NameOrder`, instead of `sorted`.
- A name that is a file on one side and a folder on the other is not reported. Line 115 recurses only when both sides are dicts, and no other branch reports the name. `Differ.KindMismatchIsSilent` exhibits two different hierarchies with an empty diff.
- Text.SplitLines cuts at every line-boundary character of `str.splitlines`.
  - A `\r\n` pair and a terminator at the very end give extra empty pieces where Python gives none.
  - The empty text gives one empty piece, `[""]`, where Python's `"".splitlines()` gives `[]`.
  - Those pieces are blank, and line 20 drops blank lines, so the non-blank lines and their order agree.
  - This agreement is argued here, not proved.
  - Its own contract states only the shape of the pieces. `Text.SplitAtBreak` and `Text.SplitNoBreak` together determine the pieces of every text.
- Parser.ReadEntries reads every line into an entry before any entry is stored, while Python reads and stores line by line. Reading a line does not depend on the stack, so the order of the two steps does not matter.
- Python's regex and `str` operations are modelled only for the characters and cases these lines use. There is no general regex engine.
- Render.ParseListing holds only for names the format can carry. Such a name is non-empty, has no whitespace at either end and no line break, and does not end in `/`; the root also may not start with `/`. Other names cannot be written in the format, so they cannot round-trip.
- Differ.Diff: its own contract only bounds the reported names. What is reported for each name is stated by `Differ.DiffMeans`, in a separate lemma to keep proofs about `Diff` small.
- Text.Strip: its own contract states only that the result is no longer than the input and neither starts nor ends in `cs`. `Text.StripSlice` states that the result is a slice of the input with only characters of `cs` cut off.
- Parser.RootName: its own contract states only the length and the ends of the name. `Parser.RootNameSlice` states which slice of the line it is.
- Text.KeepNonBlank: its own contract states only the shape of the kept lines. `Text.KeepNonBlankOne` and `Text.KeepNonBlankAppend` together state which lines are kept and in what order.
- Parser.ParseEntry: its own contract states only that the stored name has no trailing `/`. `Parser.ParseEntryMeans` states its level, kind and name.
- Parser.Store: its own contract states only that the parser invariant `Valid` is kept. `Parser.StorePlacesEntry` states where the entry is stored and which frames stay open.
- Tree.InsertAt: its own contract states only that the child is at its path and the parent stays a folder. `Tree.InsertAtLookup` states that every other path, siblings included, is unchanged.
- Tree.ReplaceAt: its own contract states only that the path finds the new node and that the outermost folder keeps its names. `Tree.LookupReplaceAt` states that every folder on the way stays a folder and every path off the replaced one sees the old tree.

=== FILE: differ.dfy ===
/** `diff_trees`: a recursive comparison of a baseline hierarchy with an
    actual one over the union of their child names. */
module Differ {
  import opened Tree

  /** One reported name. Python's `("-", subtree)`, `("+", subtree)` and
      `("", child_diff)`: a missing or extra entry carries the raw subtree of
      its side, a changed folder carries the diff of its children. */
  datatype DiffEntry =
    | Missing(node: Node)
    | Extra(node: Node)
    | Changed(children: map<string, DiffEntry>)

  /** Lines 103-120 of `diff_trees`. A name on one side only is reported with
      that side's subtree; a folder on both sides is reported only when the
      diff of its children is non-empty; any other name on both sides (two
      files, or a file and a folder) is not reported at all. */
  function Diff(base: map<string, Node>, actual: map<string, Node>): (d: map<string, DiffEntry>)
    ensures d.Keys <= base.Keys + actual.Keys
    decreases Dir(base)
  {
    map k | k in base.Keys + actual.Keys
      && (k in base && k in actual ==>
            base[k].Dir? && actual[k].Dir? && Diff(base[k].children, actual[k].children) != map[])
      :: if k !in actual then Missing(base[k])
         else if k !in base then Extra(actual[k])
         else Changed(Diff(base[k].children, actual[k].children))
  }

  /** What `Diff` reports for each name of either side. */
  lemma DiffMeans(base: map<string, Node>, actual: map<string, Node>)
    ensures var d := Diff(base, actual);
      && (forall k | k in base && k !in actual :: k in d && d[k] == Missing(base[k]))
      && (forall k | k in actual && k !in base :: k in d && d[k] == Extra(actual[k]))
      && (forall k | k in base && k in actual && !(base[k].Dir? && actual[k].Dir?) :: k !in d)
      && (forall k | k in base && k in actual && base[k].Dir? && actual[k].Dir? ::
            (k in d <==> Diff(base[k].children, actual[k].children) != map[]))
      && (forall k | k in d && k in base && k in actual ::
            && base[k].Dir? && actual[k].Dir?
            && d[k] == Changed(Diff(base[k].children, actual[k].children))
            && d[k].children != map[])
  {
  }

  /** A hierarchy compared with itself has no differences. */
  lemma {:induction false} DiffSelf(t: map<string, Node>)
    ensures Diff(t, t) == map[]
    decreases Dir(t)
  {
    forall k | k in t && t[k].Dir?
      ensures Diff(t[k].children, t[k].children) == map[]
    {
      DiffSelf(t[k].children);
    }
  }

  /** Against an empty actual hierarchy every name is missing, with its whole
      baseline subtree. */
  lemma DiffAgainstEmpty(t: map<string, Node>)
    ensures Diff(t, map[]) == map k | k in t :: Missing(t[k])
  {
  }

  /** From an empty baseline every name is extra, with its whole actual subtree. */
  lemma DiffFromEmpty(t: map<string, Node>)
    ensures Diff(map[], t) == map k | k in t :: Extra(t[k])
  {
  }

  // ---------------------------------------------------------------------
  // When the diff is empty

  /** The two hierarchies have the same names at every level where both
      sides hold a folder; a file/file or file/folder pair is not looked into. */
  predicate Matches(base: map<string, Node>, actual: map<string, Node>)
    decreases Dir(base)
  {
    && base.Keys == actual.Keys
    && forall k | k in base && base[k].Dir? && actual[k].Dir? ::
         Matches(base[k].children, actual[k].children)
  }

  /** The diff is empty exactly when the hierarchies match. */
  lemma {:induction false} EmptyDiffIffMatches(base: map<string, Node>, actual: map<string, Node>)
    ensures Diff(base, actual) == map[] <==> Matches(base, actual)
    decreases Dir(base)
  {
    forall k | k in base && k in actual && base[k].Dir? && actual[k].Dir?
      ensures Diff(base[k].children, actual[k].children) == map[]
          <==> Matches(base[k].children, actual[k].children)
    {
      EmptyDiffIffMatches(base[k].children, actual[k].children);
    }
    DiffMeans(base, actual);
    var d := Diff(base, actual);
    if d == map[] {
      assert base.Keys == actual.Keys;
    }
  }

  /** No name is a file on one side and a folder on the other, at any level
      both sides reach. */
  predicate SameKinds(base: map<string, Node>, actual: map<string, Node>)
    decreases Dir(base)
  {
    forall k | k in base && k in actual ::
      && base[k].Dir? == actual[k].Dir?
      && (base[k].Dir? ==> SameKinds(base[k].children, actual[k].children))
  }

  /** Where kinds agree, matching is equality. */
  lemma {:induction false} MatchesIffEqual(base: map<string, Node>, actual: map<string, Node>)
    requires SameKinds(base, actual)
    ensures Matches(base, actual) <==> base == actual
    decreases Dir(base)
  {
    forall k | k in base && k in actual && base[k].Dir?
      ensures Matches(base[k].children, actual[k].children) <==> base[k] == actual[k]
    {
      MatchesIffEqual(base[k].children, actual[k].children);
    }
    if base == actual {
      forall k | k in base && base[k].Dir? && actual[k].Dir?
        ensures Matches(base[k].children, actual[k].children)
      {
      }
    }
    if Matches(base, actual) {
      forall k | k in base ensures base[k] == actual[k] {
        if base[k].File? {
          assert actual[k].File?;
        }
      }
    }
  }

  /** Where kinds agree, the diff is empty exactly for equal hierarchies. */
  lemma EmptyDiffIffEqual(base: map<string, Node>, actual: map<string, Node>)
    requires SameKinds(base, actual)
    ensures Diff(base, actual) == map[] <==> base == actual
  {
    EmptyDiffIffMatches(base, actual);
    MatchesIffEqual(base, actual);
  }

  /** A file on one side and a folder on the other is not reported, so two
      different hierarchies can have an empty diff. */
  lemma KindMismatchIsSilent()
    ensures var base := map["x" := File];
      var actual := map["x" := Dir(map["y" := File])];
      base != actual && Diff(base, actual) == map[]
  {
    var base := map["x" := File];
    var actual := map["x" := Dir(map["y" := File])];
    assert base["x"] != actual["x"];
  }

  // ---------------------------------------------------------------------
  // Swapping the sides

  /** Every missing entry made extra and every extra entry made missing. */
  function Flip(d: map<string, DiffEntry>): (r: map<string, DiffEntry>)
    ensures r.Keys == d.Keys
    ensures forall k | k in d && d[k].Missing? :: r[k] == Extra(d[k].node)
    ensures forall k | k in d && d[k].Extra? :: r[k] == Missing(d[k].node)
    ensures forall k | k in d && d[k].Changed? :: r[k].Changed?
    decreases Changed(d)
  {
    map k | k in d :: match d[k]
      case Missing(n) => Extra(n)
      case Extra(n) => Missing(n)
      case Changed(c) => Changed(Flip(c))
  }

  /** Flipping twice gives the diff back. */
  lemma {:induction false} FlipFlip(d: map<string, DiffEntry>)
    ensures Flip(Flip(d)) == d
    decreases Changed(d)
  {
    forall k | k in d && d[k].Changed?
      ensures Flip(Flip(d))[k] == d[k]
    {
      FlipFlip(d[k].children);
    }
  }

  /** Comparing the other way round swaps missing and extra at every level. */
  lemma {:induction false} DiffSwap(base: map<string, Node>, actual: map<string, Node>)
    ensures Diff(actual, base) == Flip(Diff(base, actual))
    decreases Dir(base)
  {
    forall k | k in base && k in actual && base[k].Dir? && actual[k].Dir?
      ensures Diff(actual[k].children, base[k].children) == Flip(Diff(base[k].children, actual[k].children))
    {
      DiffSwap(base[k].children, actual[k].children);
    }
    SwapOneLevel(base, actual);
  }

  /** One level of `DiffSwap`, given the swap for every folder both sides hold. */
  lemma SwapOneLevel(base: map<string, Node>, actual: map<string, Node>)
    requires forall k | k in base && k in actual && base[k].Dir? && actual[k].Dir? ::
      Diff(actual[k].children, base[k].children) == Flip(Diff(base[k].children, actual[k].children))
    ensures Diff(actual, base) == Flip(Diff(base, actual))
  {
    var e := Diff(actual, base);
    var f := Flip(Diff(base, actual));
    forall k ensures (k in e <==> k in f) && (k in e ==> e[k] == f[k]) {
      SwapAt(base, actual, k);
    }
  }

  /** The swap at one name of either side. */
  lemma SwapAt(base: map<string, Node>, actual: map<string, Node>, k: string)
    requires k in base && k in actual && base[k].Dir? && actual[k].Dir? ==>
      Diff(actual[k].children, base[k].children) == Flip(Diff(base[k].children, actual[k].children))
    ensures var e := Diff(actual, base);
      var f := Flip(Diff(base, actual));
      (k in e <==> k in f) && (k in e ==> e[k] == f[k])
  {
    DiffMeans(base, actual);
    DiffMeans(actual, base);
    if k in base && k in actual && base[k].Dir? && actual[k].Dir? {
      FlipEmpty(Diff(base[k].children, actual[k].children));
    }
  }

  lemma FlipEmpty(d: map<string, DiffEntry>)
    ensures Flip(d) == map[] <==> d == map[]
  {
  }

  // ---------------------------------------------------------------------
  // Applying a diff

  /** The hierarchy a diff describes, given its baseline: missing names
      removed, extra names added with their subtrees, changed folders patched
      in turn. A changed entry over a name the baseline lacks as a folder
      patches an empty folder. */
  function Patch(base: map<string, Node>, d: map<string, DiffEntry>): (r: map<string, Node>)
    ensures r.Keys == (base.Keys + d.Keys) - set k | k in d && d[k].Missing?
    decreases Changed(d)
  {
    map k | k in base.Keys + d.Keys && !(k in d && d[k].Missing?) ::
      if k !in d then base[k]
      else if d[k].Extra? then d[k].node
      else Dir(Patch(if k in base && base[k].Dir? then base[k].children else map[], d[k].children))
  }

  /** Where kinds agree, the diff holds everything needed to rebuild the
      actual hierarchy from the baseline. */
  lemma {:induction false} PatchDiff(base: map<string, Node>, actual: map<string, Node>)
    requires SameKinds(base, actual)
    ensures Patch(base, Diff(base, actual)) == actual
    decreases Dir(base)
  {
    var d := Diff(base, actual);
    var r := Patch(base, d);
    forall k | k in actual
      ensures k in r && r[k] == actual[k]
    {
      if k in base && base[k].Dir? {
        var b := base[k].children;
        var a := actual[k].children;
        if k in d {
          PatchDiff(b, a);
        } else {
          EmptyDiffIffEqual(b, a);
        }
      }
    }
  }
}

=== FILE: parser.dfy ===
/** `parse_tree`: an indented `tree`-style listing becomes a one-key mapping
    from the root name to the root folder.

    Python keeps a stack of `(depth, dict)` pairs whose dicts alias folders
    inside the tree being built. Here a frame holds the folder's path from the
    root instead, and a write is a pure `InsertAt`. The two agree because a
    write only ever goes into the stack top, and every frame deeper than the
    written child has been popped by then, so no live frame is ever detached by
    an overwrite. */
module Parser {
  import opened Text
  import opened Tree

  /** Box-drawing characters of the listing format. */
  const Bar: char := '\U{2502}'        // │
  const Tee: string := "\U{251C}\U{2500}\U{2500} "     // "├── "
  const Corner: string := "\U{2514}\U{2500}\U{2500} "  // "└── "

  /** The characters `[ │]` counted as indentation. */
  const IndentChars: set<char> := {' ', Bar}

  // ---------------------------------------------------------------------
  // One entry line

  /** Length of the leading run of spaces and `│`, the group `^([ │]+)` of
      the indentation regex (zero when that regex does not match). */
  function IndentWidth(line: string): (w: nat)
    ensures w <= |line|
    ensures forall i | 0 <= i < w :: line[i] in IndentChars
    ensures w == |line| || line[w] !in IndentChars
  {
    |line| - |StripStart(line, IndentChars)|
  }

  /** The entry's nesting level: indentation width divided by four, truncated. */
  function Level(line: string): nat
  {
    IndentWidth(line) / 4
  }

  /** The line continues after its indentation with `├── ` or `└── `. */
  predicate HasConnector(line: string)
  {
    var rest := line[IndentWidth(line)..];
    Tee <= rest || Corner <= rest
  }

  /** The regex `^[ │]*(├── |└── )` matches the first `j + 4` characters. */
  predicate ConnectorRegexMatches(line: string, j: nat)
  {
    && j <= |line|
    && (forall i | 0 <= i < j :: line[i] in IndentChars)
    && (Tee <= line[j..] || Corner <= line[j..])
  }

  /** The regex can only match with the whole indentation run in its
      `[ │]*` part, because neither connector starts with a space or `│`. */
  lemma ConnectorRegexIsMaximal(line: string, j: nat)
    ensures ConnectorRegexMatches(line, j) <==> HasConnector(line) && j == IndentWidth(line)
  {
    var w := IndentWidth(line);
    if ConnectorRegexMatches(line, j) {
      assert line[j..][0] == line[j] && line[j] !in IndentChars;
    }
  }

  /** `re.sub(r'^[ │]*(├── |└── )', '', line)`: indentation and connector
      removed when both are there, the line untouched otherwise. */
  function StripConnector(line: string): string
  {
    if HasConnector(line) then line[IndentWidth(line) + |Tee|..] else line
  }

  /** `re.sub` stated through the regex itself: wherever the regex matches,
      the matched prefix is removed, and a line it does not match at all is
      returned unchanged. */
  lemma StripConnectorMeans(line: string)
    ensures forall j: nat | ConnectorRegexMatches(line, j) ::
      j + |Tee| <= |line| && StripConnector(line) == line[j + |Tee|..]
    ensures (forall j: nat :: !ConnectorRegexMatches(line, j)) ==> StripConnector(line) == line
  {
    forall j: nat | ConnectorRegexMatches(line, j)
      ensures j + |Tee| <= |line| && StripConnector(line) == line[j + |Tee|..]
    {
      ConnectorRegexIsMaximal(line, j);
    }
    ConnectorRegexIsMaximal(line, IndentWidth(line));
  }

  predicate EndsInSlash(s: string)
  {
    s != [] && s[|s| - 1] == '/'
  }

  /** What one listing line contributes: its level, its stored name, and
      whether it names a folder. */
  datatype Entry = Entry(level: nat, name: string, isFolder: bool)

  /** Lines 33-47 of `parse_tree`: a folder is marked by a trailing `/` on the
      trimmed name, and every trailing `/` is removed from the stored name. */
  function ParseEntry(line: string): (e: Entry)
    ensures !EndsInSlash(e.name)
  {
    NamedEntry(Level(line), Strip(StripConnector(line), Whitespace))
  }

  /** The entry for the trimmed text `name` found at `level`. */
  function NamedEntry(level: nat, name: string): (e: Entry)
    ensures !EndsInSlash(e.name)
  {
    if EndsInSlash(name) then
      var stored := StripEnd(name, {'/'});
      assert stored == [] || stored[|stored| - 1] !in {'/'};
      Entry(level, stored, true)
    else Entry(level, name, false)
  }

  /** What an entry line means: its level is the indentation width divided
      by four, it names a folder exactly when the trimmed text after the
      connector ends with `/`, and its name is that text without its
      trailing `/` run. */
  lemma ParseEntryMeans(line: string)
    ensures var e := ParseEntry(line);
      var name := Strip(StripConnector(line), Whitespace);
      && e.level == IndentWidth(line) / 4
      && (e.isFolder <==> EndsInSlash(name))
      && e.name == StripEnd(name, {'/'})
  {
    var name := Strip(StripConnector(line), Whitespace);
    if !EndsInSlash(name) {
      StripFixed(name, {'/'});
    }
  }

  /** The root name: the first line trimmed, then stripped of `/` at both ends. */
  function RootName(line: string): (r: string)
    ensures |r| <= |line|
    ensures r == [] || (r[0] != '/' && r[|r| - 1] != '/')
  {
    Strip(Strip(line, Whitespace), {'/'})
  }

  /** The root name is a slice `line[a..b]` of the line: outside the trimmed
      part `line[i..j]` there is only whitespace, and between the trimmed part
      and the name there is only `/`. */
  lemma RootNameSlice(line: string) returns (i: nat, a: nat, b: nat, j: nat)
    ensures i <= a <= b <= j <= |line|
    ensures Strip(line, Whitespace) == line[i..j] && RootName(line) == line[a..b]
    ensures AllIn(line, 0, i, Whitespace) && AllIn(line, j, |line|, Whitespace)
    ensures AllIn(line, i, a, {'/'}) && AllIn(line, b, j, {'/'})
  {
    i, a, b, j := StripTwiceSlice(line, Whitespace, {'/'});
  }

  // ---------------------------------------------------------------------
  // The folder stack

  /** No name anywhere below `n` ends with `/`. */
  predicate CleanNames(n: Node)
  {
    match n
    case File => true
    case Dir(m) => forall k | k in m :: !EndsInSlash(k) && CleanNames(m[k])
  }

  /** An open folder: the listing depth its children have, and its path. */
  datatype Frame = Frame(depth: nat, path: Path)

  /** The root folder built so far and the stack of open folders. */
  datatype State = State(root: Node, stack: seq<Frame>)

  /** Depths strictly increase up the stack, and each frame's folder lies
      inside the folder of every frame below it. */
  predicate Ordered(stack: seq<Frame>)
  {
    && (forall i, j | 0 <= i < j < |stack| :: stack[i].depth < stack[j].depth)
    && (forall i, j | 0 <= i <= j < |stack| :: stack[i].path <= stack[j].path)
  }

  /** Every frame of the stack names a folder of `root`. */
  predicate FramesAreDirs(root: Node, stack: seq<Frame>)
  {
    forall i | 0 <= i < |stack| :: IsDirAt(root, stack[i].path)
  }

  /** What holds before and after each line: the root frame `(0, [])` at the
      bottom of an ordered stack whose frames all name folders of a tree in
      which no name ends with `/`. */
  predicate Valid(s: State)
  {
    && |s.stack| > 0
    && s.stack[0] == Frame(0, [])
    && Ordered(s.stack)
    && FramesAreDirs(s.root, s.stack)
    && CleanNames(s.root)
  }

  /** The state after the root line: an empty root folder, the only frame open. */
  function Initial(): (s: State)
    ensures Valid(s)
  {
    State(Dir(map[]), [Frame(0, [])])
  }

  /** Line 50: pop while the top frame's depth is at least `level + 1`. */
  function PopTo(stack: seq<Frame>, level: nat): (r: seq<Frame>)
    ensures r <= stack
    ensures r == [] || r[|r| - 1].depth < level + 1
    ensures forall i | |r| <= i < |stack| :: stack[i].depth >= level + 1
  {
    if stack != [] && stack[|stack| - 1].depth >= level + 1 then PopTo(stack[..|stack| - 1], level)
    else stack
  }

  /** Line 52: the folder an entry goes into, falling back to the root when
      the stack is empty. */
  function ParentPath(kept: seq<Frame>): Path
  {
    if kept == [] then [] else kept[|kept| - 1].path
  }

  /** Lines 50-57: pop to the entry's level, store the entry in the folder
      now on top, and open it if it is a folder. */
  function Store(s: State, e: Entry): (r: State)
    requires Valid(s) && !EndsInSlash(e.name)
    ensures Valid(r)
  {
    var kept := PopTo(s.stack, e.level);
    var parent := ParentPath(kept);
    var child := if e.isFolder then Dir(map[]) else File;
    var root := InsertAt(s.root, parent, e.name, child);
    var r := State(root, if e.isFolder then kept + [Frame(e.level + 1, parent + [e.name])] else kept);
    StepKeepsValid(s, e, kept, parent, child, r);
    r
  }

  /** `Store` spelled out, for proofs that follow a known entry through it. */
  lemma StoreIs(s: State, e: Entry)
    requires Valid(s) && !EndsInSlash(e.name)
    ensures var kept := PopTo(s.stack, e.level);
      var parent := ParentPath(kept);
      var child := if e.isFolder then Dir(map[]) else File;
      && IsDirAt(s.root, parent)
      && Store(s, e) == State(InsertAt(s.root, parent, e.name, child),
                              if e.isFolder then kept + [Frame(e.level + 1, parent + [e.name])] else kept)
  {
  }

  /** Where an entry lands: the parent is the deepest open folder whose
      depth is at most the entry's level (never the fallback of line 52,
      since the root frame is never popped); the entry is stored there with
      its kind, is opened when it is a folder, and a path `q` outside the
      entry's own path sees the same node as before. */
  lemma StorePlacesEntry(s: State, e: Entry, q: Path)
    requires Valid(s) && !EndsInSlash(e.name)
    ensures var kept := PopTo(s.stack, e.level);
      var at := ParentPath(kept) + [e.name];
      var r := Store(s, e);
      && kept != []
      && kept[0] == Frame(0, [])
      && kept[|kept| - 1].depth <= e.level
      && (forall i | |kept| <= i < |s.stack| :: s.stack[i].depth > e.level)
      && Lookup(r.root, at) == Some(if e.isFolder then Dir(map[]) else File)
      && r.stack == kept + (if e.isFolder then [Frame(e.level + 1, at)] else [])
      && (!(at <= q) && !(q <= at) ==> Lookup(r.root, q) == Lookup(s.root, q))
  {
    var kept := PopTo(s.stack, e.level);
    var parent := ParentPath(kept);
    var child := if e.isFolder then Dir(map[]) else File;
    PopKeepsBottom(s.stack, e.level);
    StoreIs(s, e);
    InsertAtLookup(s.root, parent, e.name, child, q);
  }

  lemma StepKeepsValid(s: State, e: Entry, kept: seq<Frame>, parent: Path, child: Node, r: State)
    requires Valid(s)
    requires kept == PopTo(s.stack, e.level) && parent == ParentPath(kept)
    requires !EndsInSlash(e.name)
    requires child == if e.isFolder then Dir(map[]) else File
    requires r.root == InsertAt(s.root, parent, e.name, child)
    requires r.stack == if e.isFolder then kept + [Frame(e.level + 1, parent + [e.name])] else kept
    ensures Valid(r)
  {
    PoppedValid(s, e.level);
    InsertKeepsValid(State(s.root, kept), e, child, r);
  }

  /** Popping keeps a valid state valid. */
  lemma PoppedValid(s: State, level: nat)
    requires Valid(s)
    ensures Valid(State(s.root, PopTo(s.stack, level)))
  {
    var kept := PopTo(s.stack, level);
    PopKeepsBottom(s.stack, level);
    PopKeepsOrder(s.stack, level);
    forall i | 0 <= i < |kept| ensures IsDirAt(s.root, kept[i].path) {
      assert kept[i] == s.stack[i];
    }
  }

  /** Storing an entry in the top frame's folder, and opening it when it is
      a folder one level deeper than the top, keeps a state valid. */
  lemma InsertKeepsValid(t: State, e: Entry, child: Node, r: State)
    requires Valid(t) && !EndsInSlash(e.name)
    requires t.stack[|t.stack| - 1].depth < e.level + 1
    requires child == if e.isFolder then Dir(map[]) else File
    requires r.root == InsertAt(t.root, ParentPath(t.stack), e.name, child)
    requires r.stack == if e.isFolder then t.stack + [Frame(e.level + 1, ParentPath(t.stack) + [e.name])] else t.stack
    ensures Valid(r)
  {
    var parent := ParentPath(t.stack);
    InsertKeepsFrames(t.root, t.stack, e.name, child);
    InsertAtClean(t.root, parent, e.name, child);
    if e.isFolder {
      PushKeepsOrder(t.stack, Frame(e.level + 1, parent + [e.name]));
      assert FramesAreDirs(r.root, r.stack) by {
        forall i | 0 <= i < |r.stack| ensures IsDirAt(r.root, r.stack[i].path) {
          if i < |t.stack| { assert r.stack[i] == t.stack[i]; }
        }
      }
    }
  }

  /** The root frame, of depth 0, is never popped. */
  lemma PopKeepsBottom(stack: seq<Frame>, level: nat)
    requires stack != [] && stack[0].depth == 0
    ensures PopTo(stack, level) != [] && PopTo(stack, level)[0] == stack[0]
  {
  }

  lemma PopKeepsOrder(stack: seq<Frame>, level: nat)
    requires Ordered(stack)
    ensures Ordered(PopTo(stack, level))
  {
    var kept := PopTo(stack, level);
    forall i | 0 <= i < |kept| ensures kept[i] == stack[i] { }
  }

  /** A frame deeper than the top and inside its folder may be pushed. */
  lemma PushKeepsOrder(kept: seq<Frame>, f: Frame)
    requires Ordered(kept) && kept != []
    requires kept[|kept| - 1].depth < f.depth && kept[|kept| - 1].path <= f.path
    ensures Ordered(kept + [f])
  {
    var r := kept + [f];
    forall i, j | 0 <= i <= j < |r| ensures r[i].path <= r[j].path {
      if j == |kept| && i < j {
        assert r[i] == kept[i];
        assert kept[i].path <= kept[|kept| - 1].path;
      }
    }
    forall i, j | 0 <= i < j < |r| ensures r[i].depth < r[j].depth {
      if j == |kept| {
        assert r[i] == kept[i];
        assert kept[i].depth <= kept[|kept| - 1].depth;
      }
    }
  }

  /** Storing an entry in the top frame's folder leaves every frame of an
      ordered stack naming a folder. */
  lemma InsertKeepsFrames(root: Node, kept: seq<Frame>, name: string, child: Node)
    requires kept != [] && Ordered(kept) && FramesAreDirs(root, kept)
    ensures FramesAreDirs(InsertAt(root, kept[|kept| - 1].path, name, child), kept)
  {
    var parent := kept[|kept| - 1].path;
    forall i | 0 <= i < |kept|
      ensures IsDirAt(InsertAt(root, parent, name, child), kept[i].path)
    {
      assert kept[i].path <= parent;
      InsertAtLookup(root, parent, name, child, kept[i].path);
    }
  }

  /** The subtree found by a lookup in a clean tree is clean. */
  lemma {:induction false} LookupClean(n: Node, p: Path)
    requires CleanNames(n) && Lookup(n, p).Some?
    ensures CleanNames(Lookup(n, p).value)
    decreases p
  {
    if p != [] {
      LookupClean(n.children[p[0]], p[1..]);
    }
  }

  /** Replacing a clean subtree by a clean node keeps the tree clean. */
  lemma {:induction false} ReplaceAtClean(n: Node, p: Path, x: Node)
    requires CleanNames(n) && CleanNames(x) && Lookup(n, p).Some?
    ensures CleanNames(ReplaceAt(n, p, x))
    decreases p
  {
    if p != [] {
      ReplaceAtClean(n.children[p[0]], p[1..], x);
    }
  }

  lemma InsertAtClean(n: Node, p: Path, name: string, child: Node)
    requires CleanNames(n) && CleanNames(child) && !EndsInSlash(name) && IsDirAt(n, p)
    ensures CleanNames(InsertAt(n, p, name, child))
  {
    var d := Lookup(n, p).value;
    LookupClean(n, p);
    ReplaceAtClean(n, p, Dir(d.children[name := child]));
  }

  /** No entry name ends with `/`. */
  predicate CleanEntries(es: seq<Entry>)
  {
    forall i | 0 <= i < |es| :: !EndsInSlash(es[i].name)
  }

  /** `f` applied to every element of `xs`, in order. */
  function MapSeq<A, B>(f: A -> B, xs: seq<A>): (ys: seq<B>)
    ensures |ys| == |xs|
  {
    if xs == [] then [] else [f(xs[0])] + MapSeq(f, xs[1..])
  }

  lemma {:induction false} MapSeqAt<A, B>(f: A -> B, xs: seq<A>)
    ensures forall i | 0 <= i < |xs| :: MapSeq(f, xs)[i] == f(xs[i])
  {
    if xs != [] {
      MapSeqAt(f, xs[1..]);
    }
  }

  lemma {:induction false} MapSeqAppend<A, B>(f: A -> B, a: seq<A>, b: seq<A>)
    ensures MapSeq(f, a + b) == MapSeq(f, a) + MapSeq(f, b)
  {
    if a == [] {
      assert a + b == b;
    } else {
      var ab := a + b;
      assert ab[0] == a[0] && ab[1..] == a[1..] + b;
      MapSeqAppend(f, a[1..], b);
      var x, y, z := [f(a[0])], MapSeq(f, a[1..]), MapSeq(f, b);
      assert MapSeq(f, ab) == x + (y + z);
      assert x + (y + z) == (x + y) + z;
    }
  }

  /** Each line read as an entry. Reading a line does not depend on the
      stack, so reading every line first and storing the entries afterwards
      is the loop of lines 30-57. */
  function ReadEntries(lines: seq<string>): (es: seq<Entry>)
    ensures |es| == |lines|
  {
    MapSeq(ParseEntry, lines)
  }

  /** Every line reads as its own entry, so no entry's name ends in `/`. */
  lemma ReadEntriesAt(lines: seq<string>)
    ensures forall i | 0 <= i < |lines| :: ReadEntries(lines)[i] == ParseEntry(lines[i])
    ensures CleanEntries(ReadEntries(lines))
  {
    MapSeqAt(ParseEntry, lines);
  }

  /** A single line reads as its own entry. */
  lemma ReadSingle(line: string)
    ensures ReadEntries([line]) == [ParseEntry(line)]
  {
    MapSeqAt(ParseEntry, [line]);
  }

  /** The entries after the root line, stored one after the other. */
  function Fold(s: State, es: seq<Entry>): (r: State)
    requires Valid(s) && CleanEntries(es)
    ensures Valid(r)
    ensures |r.stack| >= 1 && r.stack[0] == Frame(0, [])
    decreases |es|
  {
    if es == [] then s else Fold(Store(s, es[0]), es[1..])
  }

  /** Storing two runs of entries is storing their concatenation. */
  lemma {:induction false} FoldAppend(s: State, a: seq<Entry>, b: seq<Entry>)
    requires Valid(s) && CleanEntries(a) && CleanEntries(b)
    ensures CleanEntries(a + b)
    ensures Fold(s, a + b) == Fold(Fold(s, a), b)
    decreases |a|
  {
    assert CleanEntries(a + b) by {
      forall i | 0 <= i < |a + b| ensures !EndsInSlash((a + b)[i].name) {
        if i < |a| { assert (a + b)[i] == a[i]; } else { assert (a + b)[i] == b[i - |a|]; }
      }
    }
    if a == [] {
      assert a + b == b;
    } else {
      var s1 := Store(s, a[0]);
      assert (a + b)[0] == a[0] && (a + b)[1..] == a[1..] + b;
      assert Fold(s, a + b) == Fold(s1, a[1..] + b);
      assert Fold(s, a) == Fold(s1, a[1..]);
      FoldAppend(s1, a[1..], b);
    }
  }

  // ---------------------------------------------------------------------
  // The whole listing

  /** `parse_tree` on the non-blank, right-trimmed lines. */
  function ParseLines(lines: seq<string>): (r: map<string, Node>)
    ensures lines == [] ==> r == map[]
    ensures lines != [] ==> r.Keys == {RootName(lines[0])} && r[RootName(lines[0])].Dir?
    ensures forall k | k in r :: !EndsInSlash(k) && CleanNames(r[k])
  {
    if lines == [] then map[]
    else
      var root := RootName(lines[0]);
      ReadEntriesAt(lines[1..]);
      var s := Fold(Initial(), ReadEntries(lines[1..]));
      assert IsDirAt(s.root, s.stack[0].path);
      map[root := s.root]
  }

  /** A single line is the root folder, empty. */
  lemma RootLineOnly(line: string)
    ensures ParseLines([line]) == map[RootName(line) := Dir(map[])]
  {
    assert [line][1..] == [];
  }

  /** `parse_tree(tree_str)`. */
  function ParseTree(text: string): (r: map<string, Node>)
    ensures NonBlankLines(text) == [] ==> r == map[]
    ensures NonBlankLines(text) != [] ==>
      r.Keys == {RootName(NonBlankLines(text)[0])} && r[RootName(NonBlankLines(text)[0])].Dir?
    ensures forall k | k in r :: !EndsInSlash(k) && CleanNames(r[k])
  {
    ParseLines(NonBlankLines(text))
  }

  /** Empty or whitespace-only input parses to the empty mapping. */
  lemma WhitespaceParsesEmpty(text: string)
    requires forall i | 0 <= i < |text| :: text[i] in Whitespace
    ensures ParseTree(text) == map[]
  {
    WhitespaceHasNoLines(text);
  }

  /** A listing with nothing but its root line is one empty folder. */
  lemma RootOnly(line: string)
    requires !IsBlank(line) && forall i | 0 <= i < |line| :: line[i] !in LineBreaks
    ensures ParseTree(line) == map[RootName(line) := Dir(map[])]
    ensures RootName(line) == RootName(StripEnd(line, Whitespace))
  {
    SplitNoBreak(line);
    var t := StripEnd(line, Whitespace);
    KeepNonBlankOne(line);
    assert NonBlankLines(line) == [t];
    RootLineOnly(t);
    RootNameIgnoresTrailing(line);
  }

  /** The root name does not depend on trailing whitespace, which `rstrip`
      has already removed before the root line is read. */
  lemma RootNameIgnoresTrailing(line: string)
    ensures RootName(line) == RootName(StripEnd(line, Whitespace))
  {
    var e := StripEnd(line, Whitespace);
    assert StripEnd(e, Whitespace) == e;
    assert StripEnd(line, Whitespace) == e;
  }
}

=== FILE: render.dfy ===
/** A reference renderer for the listing format `parse_tree` reads, in the
    style of `tree`: one line per entry, `├── ` before every entry but the
    last of its folder and `└── ` before the last, folders marked with a
    trailing `/`, and four characters of `│   ` or spaces per level. Parsing a
    rendered hierarchy gives the hierarchy back, for every hierarchy whose
    names the format can carry. */
module Render {
  import opened Text
  import opened Tree
  import opened Parser

  /** A name the format can carry: non-empty, no whitespace at either end, no
      line break inside, and no trailing `/` (which would read as a folder mark). */
  predicate NameFits(k: string)
  {
    && k != []
    && k[0] !in Whitespace
    && k[|k| - 1] !in Whitespace
    && k[|k| - 1] != '/'
    && forall i | 0 <= i < |k| :: k[i] !in LineBreaks
  }

  /** Every name below a folder fits the format. */
  predicate Fits(m: map<string, Node>)
    decreases Dir(m)
  {
    forall k | k in m :: NameFits(k) && (m[k].Dir? ==> Fits(m[k].children))
  }

  /** A root name the format can carry: it also may not start with `/`. */
  predicate RootFits(root: string)
  {
    NameFits(root) && root[0] != '/'
  }

  /** Some listing order of a folder's names: each exactly once. */
  ghost function NameOrder(m: map<string, Node>): (ks: seq<string>)
    ensures forall i | 0 <= i < |ks| :: ks[i] in m
    ensures forall k | k in m :: k in ks
    ensures forall i, j | 0 <= i < j < |ks| :: ks[i] != ks[j]
    decreases |m|
  {
    if m == map[] then []
    else
      var k :| k in m;
      var rest := NameOrder(m - {k});
      [k] + rest
  }

  /** The entries named `ks` of the folder `m`, each line started by
      `prefix`, each folder followed by its own entries one level deeper. */
  ghost function Entries(m: map<string, Node>, ks: seq<string>, prefix: string): seq<string>
    requires forall i | 0 <= i < |ks| :: ks[i] in m
    decreases Dir(m), |ks|, 1
  {
    if ks == [] then [] else Block(m, ks, prefix) + Entries(m, ks[1..], prefix)
  }

  /** The first of the entries `ks`: its own line, `└── ` when it is the
      last entry of its folder, then its children's entries under the
      matching extension of the prefix. */
  ghost function Block(m: map<string, Node>, ks: seq<string>, prefix: string): seq<string>
    requires ks != [] && forall i | 0 <= i < |ks| :: ks[i] in m
    decreases Dir(m), |ks|, 0
  {
    var k := ks[0];
    [prefix + Connector(ks) + k + (if m[k].Dir? then "/" else "")] +
    match m[k]
    case File => []
    case Dir(c) => Entries(c, NameOrder(c), prefix + Extension(ks))
  }

  /** `└── ` before the last entry of a folder, `├── ` before the others. */
  function Connector(ks: seq<string>): string
  {
    if |ks| == 1 then Corner else Tee
  }

  /** What the children's lines add to the prefix: blanks under the last
      entry, a continuing `│` under the others. */
  function Extension(ks: seq<string>): string
  {
    if |ks| == 1 then "    " else [Bar, ' ', ' ', ' ']
  }

  /** The whole listing: the root line, then the root folder's entries. */
  ghost function Listing(root: string, m: map<string, Node>): seq<string>
  {
    [root + "/"] + Entries(m, NameOrder(m), "")
  }

  /** The entries of `m` named in `ks`. */
  function Restrict(m: map<string, Node>, ks: seq<string>): (r: map<string, Node>)
    ensures r.Keys == m.Keys * set i | 0 <= i < |ks| :: ks[i]
    ensures forall k | k in r :: r[k] == m[k]
  {
    map k | k in m && k in ks :: m[k]
  }

  // ---------------------------------------------------------------------
  // One rendered line

  /** The indentation run of a rendered line is exactly its prefix. */
  lemma IndentOfRendered(prefix: string, rest: string)
    requires forall i | 0 <= i < |prefix| :: prefix[i] in IndentChars
    requires rest != [] && rest[0] !in IndentChars
    ensures IndentWidth(prefix + rest) == |prefix|
  {
    var line := prefix + rest;
    var w := IndentWidth(line);
    assert line[|prefix|] == rest[0];
  }

  /** Stripping trailing `/` from `k + "/"` gives `k` back. */
  lemma StripSlash(k: string)
    requires k != [] && k[|k| - 1] != '/'
    ensures StripEnd(k + "/", {'/'}) == k
  {
    StripEndAppend(k, '/', {'/'});
  }

  /** Indentation and connector of a rendered line are removed together. */
  lemma StripRenderedConnector(prefix: string, conn: string, tail: string)
    requires forall i | 0 <= i < |prefix| :: prefix[i] in IndentChars
    requires conn == Tee || conn == Corner
    ensures IndentWidth(prefix + conn + tail) == |prefix|
    ensures StripConnector(prefix + conn + tail) == tail
  {
    var line := prefix + conn + tail;
    assert line == prefix + (conn + tail);
    IndentOfRendered(prefix, conn + tail);
    assert line[|prefix|..] == conn + tail;
    assert conn <= conn + tail;
    assert HasConnector(line);
    assert line[|prefix| + |Tee|..] == tail;
  }

  /** The name part of a rendered line gives back the name and its kind. */
  lemma ReadRenderedName(k: string, isDir: bool)
    requires NameFits(k)
    ensures var tail := k + (if isDir then "/" else "");
      && Strip(tail, Whitespace) == tail
      && (EndsInSlash(tail) <==> isDir)
      && StripEnd(tail, {'/'}) == k
  {
    var tail := k + (if isDir then "/" else "");
    assert tail[0] == k[0];
    assert tail[|tail| - 1] !in Whitespace;
    StripFixed(tail, Whitespace);
    if isDir {
      StripSlash(k);
    } else {
      StripFixed(k, {'/'});
    }
  }

  /** A rendered entry line parses to the entry's level, name and kind. */
  lemma ParseRenderedLine(prefix: string, conn: string, k: string, isDir: bool, level: nat)
    requires |prefix| == 4 * level
    requires forall i | 0 <= i < |prefix| :: prefix[i] in IndentChars
    requires conn == Tee || conn == Corner
    requires NameFits(k)
    ensures ParseEntry(prefix + conn + k + (if isDir then "/" else "")) == Entry(level, k, isDir)
  {
    var tail := k + (if isDir then "/" else "");
    var line := prefix + conn + k + (if isDir then "/" else "");
    assert line == prefix + conn + tail;
    StripRenderedConnector(prefix, conn, tail);
    ReadRenderedName(k, isDir);
    ParseEntryMeans(line);
    var e := ParseEntry(line);
    assert e.level == level by {
      assert IndentWidth(line) == 4 * level;
      LevelOfWidth(level);
    }
    assert e.name == k;
    assert e.isFolder == isDir;
  }

  lemma LevelOfWidth(level: nat)
    ensures (4 * level) / 4 == level
  {
  }

  /** A line that survives splitting and right-trimming as it is. */
  predicate CleanLine(l: string)
  {
    && l != []
    && l[|l| - 1] !in Whitespace
    && forall j | 0 <= j < |l| :: l[j] !in LineBreaks
  }

  predicate CleanLines(ls: seq<string>)
  {
    forall i | 0 <= i < |ls| :: CleanLine(ls[i])
  }

  lemma CleanLinesAppend(a: seq<string>, b: seq<string>)
    requires CleanLines(a) && CleanLines(b)
    ensures CleanLines(a + b)
  {
    forall i | 0 <= i < |a + b| ensures CleanLine((a + b)[i]) {
      if i < |a| { assert (a + b)[i] == a[i]; } else { assert (a + b)[i] == b[i - |a|]; }
    }
  }

  /** A rendered entry line is clean. */
  lemma EntryLineIsClean(prefix: string, conn: string, k: string, isDir: bool)
    requires forall i | 0 <= i < |prefix| :: prefix[i] in IndentChars
    requires conn == Tee || conn == Corner
    requires NameFits(k)
    ensures CleanLine(prefix + conn + k + (if isDir then "/" else ""))
  {
    var sfx: string := if isDir then "/" else "";
    var line := prefix + conn + k + sfx;
    forall j | 0 <= j < |line| ensures line[j] !in LineBreaks {
      if j < |prefix| {
        assert line[j] == prefix[j];
      } else if j < |prefix| + |conn| {
        assert line[j] == conn[j - |prefix|];
      } else if j < |prefix| + |conn| + |k| {
        assert line[j] == k[j - |prefix| - |conn|];
      } else {
        assert line[j] == sfx[j - |prefix| - |conn| - |k|];
      }
    }
    assert line[|line| - 1] == if isDir then '/' else k[|k| - 1];
  }

  /** Rendered lines are clean, so splitting and trimming the joined listing
      gives them back. */
  lemma {:induction false} EntriesAreCleanLines(m: map<string, Node>, ks: seq<string>, prefix: string)
    requires forall i | 0 <= i < |ks| :: ks[i] in m && NameFits(ks[i])
    requires Fits(m)
    requires forall i | 0 <= i < |prefix| :: prefix[i] in IndentChars
    ensures CleanLines(Entries(m, ks, prefix))
    decreases Dir(m), |ks|, 1
  {
    if ks != [] {
      BlockIsCleanLines(m, ks, prefix);
      EntriesAreCleanLines(m, ks[1..], prefix);
      CleanLinesAppend(Block(m, ks, prefix), Entries(m, ks[1..], prefix));
    }
  }

  lemma {:induction false} BlockIsCleanLines(m: map<string, Node>, ks: seq<string>, prefix: string)
    requires ks != [] && forall i | 0 <= i < |ks| :: ks[i] in m && NameFits(ks[i])
    requires Fits(m)
    requires forall i | 0 <= i < |prefix| :: prefix[i] in IndentChars
    ensures CleanLines(Block(m, ks, prefix))
    decreases Dir(m), |ks|, 0
  {
    var k := ks[0];
    var line := prefix + Connector(ks) + k + (if m[k].Dir? then "/" else "");
    EntryLineIsClean(prefix, Connector(ks), k, m[k].Dir?);
    assert CleanLines([line]);
    match m[k]
    case File =>
      assert Block(m, ks, prefix) == [line];
    case Dir(c) =>
      var ext := Extension(ks);
      assert forall i | 0 <= i < |prefix + ext| :: (prefix + ext)[i] in IndentChars;
      EntriesAreCleanLines(c, NameOrder(c), prefix + ext);
      CleanLinesAppend([line], Entries(c, NameOrder(c), prefix + ext));
  }

  // ---------------------------------------------------------------------
  // Reading the rendered lines

  /** The entries the lines of `Entries(m, ks, prefix)` stand for, at
      `level`, in the same order. */
  ghost function Items(m: map<string, Node>, ks: seq<string>, level: nat): (es: seq<Entry>)
    requires forall i | 0 <= i < |ks| :: ks[i] in m && NameFits(ks[i])
    requires Fits(m)
    ensures CleanEntries(es)
    decreases Dir(m), |ks|, 1
  {
    if ks == [] then []
    else
      var a := ItemBlock(m, ks, level);
      var b := Items(m, ks[1..], level);
      CleanEntriesAppend(a, b);
      a + b
  }

  /** The first entry of `ks`, then its children's entries one level deeper. */
  ghost function ItemBlock(m: map<string, Node>, ks: seq<string>, level: nat): (es: seq<Entry>)
    requires ks != [] && forall i | 0 <= i < |ks| :: ks[i] in m && NameFits(ks[i])
    requires Fits(m)
    ensures CleanEntries(es)
    decreases Dir(m), |ks|, 0
  {
    var k := ks[0];
    var e := Entry(level, k, m[k].Dir?);
    if m[k].File? then [e]
    else
      FitsBelow(m, k);
      var below := Items(m[k].children, NameOrder(m[k].children), level + 1);
      CleanEntriesAppend([e], below);
      [e] + below
  }

  /** The names of a folder inside a fitting folder fit too. */
  lemma FitsBelow(m: map<string, Node>, k: string)
    requires Fits(m) && k in m && m[k].Dir?
    ensures Fits(m[k].children)
    ensures forall i | 0 <= i < |NameOrder(m[k].children)| ::
      NameOrder(m[k].children)[i] in m[k].children && NameFits(NameOrder(m[k].children)[i])
  {
  }

  lemma CleanEntriesAppend(a: seq<Entry>, b: seq<Entry>)
    requires CleanEntries(a) && CleanEntries(b)
    ensures CleanEntries(a + b)
  {
    forall i | 0 <= i < |a + b| ensures !EndsInSlash((a + b)[i].name) {
      if i < |a| { assert (a + b)[i] == a[i]; } else { assert (a + b)[i] == b[i - |a|]; }
    }
  }

  /** The lines read as exactly the entries `es`. */
  predicate ReadsAs(lines: seq<string>, es: seq<Entry>)
  {
    ReadEntries(lines) == es
  }

  lemma ReadEntriesAppend(a: seq<string>, b: seq<string>)
    ensures ReadEntries(a + b) == ReadEntries(a) + ReadEntries(b)
  {
    MapSeqAppend(ParseEntry, a, b);
  }

  /** Every rendered line reads back as the entry it was rendered from. */
  lemma {:induction false} ReadRenderedEntries(m: map<string, Node>, ks: seq<string>, prefix: string, level: nat)
    requires forall i | 0 <= i < |ks| :: ks[i] in m && NameFits(ks[i])
    requires Fits(m)
    requires |prefix| == 4 * level
    requires forall i | 0 <= i < |prefix| :: prefix[i] in IndentChars
    ensures ReadsAs(Entries(m, ks, prefix), Items(m, ks, level))
    decreases Dir(m), |ks|, 2
  {
    if ks != [] {
      ReadEntriesAppend(Block(m, ks, prefix), Entries(m, ks[1..], prefix));
      ReadRenderedBlock(m, ks, prefix, level);
      ReadRenderedEntries(m, ks[1..], prefix, level);
    }
  }

  lemma {:induction false} ReadRenderedBlock(m: map<string, Node>, ks: seq<string>, prefix: string, level: nat)
    requires ks != [] && forall i | 0 <= i < |ks| :: ks[i] in m && NameFits(ks[i])
    requires Fits(m)
    requires |prefix| == 4 * level
    requires forall i | 0 <= i < |prefix| :: prefix[i] in IndentChars
    ensures ReadsAs(Block(m, ks, prefix), ItemBlock(m, ks, level))
    decreases Dir(m), |ks|, 1
  {
    var k := ks[0];
    if m[k].File? {
      ReadRenderedLine(prefix, Connector(ks), k, false, level);
      BlockOfFile(m, ks, prefix, level);
    } else {
      ReadRenderedLine(prefix, Connector(ks), k, true, level);
      var c := m[k].children;
      var inner := prefix + Extension(ks);
      var deeper := level + 1;
      FitsBelow(m, k);
      ExtendPrefix(prefix, ks, level);
      ReadChildren(m, ks, c, inner, deeper);
      JoinFolderBlock(m, ks, prefix, level, c, inner, deeper);
    }
  }

  /** A folder's children, rendered one level deeper, read back as its
      children's entries. */
  lemma ReadChildren(m: map<string, Node>, ks: seq<string>, c: map<string, Node>, inner: string, deeper: nat)
    requires ks != [] && forall i | 0 <= i < |ks| :: ks[i] in m && NameFits(ks[i])
    requires m[ks[0]] == Dir(c) && Fits(c)
    requires forall i | 0 <= i < |NameOrder(c)| :: NameOrder(c)[i] in c && NameFits(NameOrder(c)[i])
    requires |inner| == 4 * deeper
    requires forall i | 0 <= i < |inner| :: inner[i] in IndentChars
    ensures ReadsAs(Entries(c, NameOrder(c), inner), Items(c, NameOrder(c), deeper))
    decreases Dir(m), |ks|, 0
  {
    ReadRenderedEntries(c, NameOrder(c), inner, deeper);
  }

  /** The folder's line followed by its children's lines reads as the
      folder's entry followed by its children's entries. */
  lemma JoinFolderBlock(m: map<string, Node>, ks: seq<string>, prefix: string, level: nat,
                        c: map<string, Node>, inner: string, deeper: nat)
    requires ks != [] && forall i | 0 <= i < |ks| :: ks[i] in m && NameFits(ks[i])
    requires Fits(m) && m[ks[0]] == Dir(c) && Fits(c)
    requires forall i | 0 <= i < |NameOrder(c)| :: NameOrder(c)[i] in c && NameFits(NameOrder(c)[i])
    requires inner == prefix + Extension(ks) && deeper == level + 1
    requires ReadsAs([prefix + Connector(ks) + ks[0] + "/"], [Entry(level, ks[0], true)])
    requires ReadsAs(Entries(c, NameOrder(c), inner), Items(c, NameOrder(c), deeper))
    ensures ReadsAs(Block(m, ks, prefix), ItemBlock(m, ks, level))
  {
    BlockOfFolder(m, ks, prefix);
    ItemBlockOfFolder(m, ks, level);
    ReadEntriesAppend([prefix + Connector(ks) + ks[0] + "/"], Entries(c, NameOrder(c), inner));
  }

  lemma BlockOfFile(m: map<string, Node>, ks: seq<string>, prefix: string, level: nat)
    requires ks != [] && forall i | 0 <= i < |ks| :: ks[i] in m && NameFits(ks[i])
    requires Fits(m) && m[ks[0]].File?
    ensures Block(m, ks, prefix) == [prefix + Connector(ks) + ks[0]]
    ensures ItemBlock(m, ks, level) == [Entry(level, ks[0], false)]
  {
    assert prefix + Connector(ks) + ks[0] + "" == prefix + Connector(ks) + ks[0];
  }

  lemma BlockOfFolder(m: map<string, Node>, ks: seq<string>, prefix: string)
    requires ks != [] && forall i | 0 <= i < |ks| :: ks[i] in m
    requires m[ks[0]].Dir?
    ensures var c := m[ks[0]].children;
      Block(m, ks, prefix) == [prefix + Connector(ks) + ks[0] + "/"] + Entries(c, NameOrder(c), prefix + Extension(ks))
  {
  }

  lemma ItemBlockOfFolder(m: map<string, Node>, ks: seq<string>, level: nat)
    requires ks != [] && forall i | 0 <= i < |ks| :: ks[i] in m && NameFits(ks[i])
    requires Fits(m) && m[ks[0]].Dir?
    requires var c := m[ks[0]].children;
      Fits(c) && forall i | 0 <= i < |NameOrder(c)| :: NameOrder(c)[i] in c && NameFits(NameOrder(c)[i])
    ensures var c := m[ks[0]].children;
      ItemBlock(m, ks, level) == [Entry(level, ks[0], true)] + Items(c, NameOrder(c), level + 1)
  {
  }

  /** The prefix of a folder's children is one level wider and still made
      of indentation characters. */
  lemma ExtendPrefix(prefix: string, ks: seq<string>, level: nat)
    requires |prefix| == 4 * level
    requires forall i | 0 <= i < |prefix| :: prefix[i] in IndentChars
    ensures |prefix + Extension(ks)| == 4 * (level + 1)
    ensures forall i | 0 <= i < |prefix + Extension(ks)| :: (prefix + Extension(ks))[i] in IndentChars
  {
    var ext := Extension(ks);
    assert |ext| == 4;
    forall i | 0 <= i < |prefix + ext| ensures (prefix + ext)[i] in IndentChars {
      if i < |prefix| { assert (prefix + ext)[i] == prefix[i]; }
      else { assert (prefix + ext)[i] == ext[i - |prefix|]; }
    }
  }

  lemma ReadRenderedLine(prefix: string, conn: string, k: string, isDir: bool, level: nat)
    requires |prefix| == 4 * level
    requires forall i | 0 <= i < |prefix| :: prefix[i] in IndentChars
    requires conn == Tee || conn == Corner
    requires NameFits(k)
    ensures isDir ==> ReadsAs([prefix + conn + k + "/"], [Entry(level, k, true)])
    ensures !isDir ==> ReadsAs([prefix + conn + k], [Entry(level, k, false)])
  {
    var line := prefix + conn + k + (if isDir then "/" else "");
    ParseRenderedLine(prefix, conn, k, isDir, level);
    ReadSingle(line);
    if !isDir {
      assert line == prefix + conn + k;
    }
  }

  // ---------------------------------------------------------------------
  // Storing the rendered entries

  /** Popping to a level stops at the first frame, from the top, that is no
      deeper than that level. */
  lemma {:induction false} PopToExact(stack: seq<Frame>, level: nat, n: nat)
    requires 0 < n <= |stack|
    requires stack[n - 1].depth <= level
    requires forall i | n <= i < |stack| :: stack[i].depth > level
    ensures PopTo(stack, level) == stack[..n]
    decreases |stack|
  {
    if |stack| > n {
      var shorter := stack[..|stack| - 1];
      assert shorter[n - 1] == stack[n - 1];
      PopToExact(shorter, level, n);
      assert shorter[..n] == stack[..n];
    } else {
      assert stack[..n] == stack;
    }
  }

  /** The frame `n - 1` is open and every frame above it is deeper. */
  predicate OpenAt(s: State, n: nat)
  {
    && Valid(s)
    && 0 < n <= |s.stack|
    && forall i | n <= i < |s.stack| :: s.stack[i].depth > s.stack[n - 1].depth
  }

  /** Storing the entries `ks` of `m`, at the level of the open frame
      `n - 1`, adds them to that frame's folder and leaves open only that
      frame, the frames below it, and frames deeper than it. */
  lemma {:induction false} StoreItems(s: State, m: map<string, Node>, ks: seq<string>, n: nat, c0: map<string, Node>)
    requires OpenAt(s, n)
    requires Lookup(s.root, s.stack[n - 1].path) == Some(Dir(c0))
    requires forall i | 0 <= i < |ks| :: ks[i] in m && NameFits(ks[i])
    requires Fits(m)
    ensures var r := Fold(s, Items(m, ks, s.stack[n - 1].depth));
      && OpenAt(r, n)
      && r.stack[..n] == s.stack[..n]
      && r.root == ReplaceAt(s.root, s.stack[n - 1].path, Dir(c0 + Restrict(m, ks)))
    decreases Dir(m), |ks|, 4
  {
    if ks == [] {
      assert c0 + Restrict(m, ks) == c0;
      ReplaceSame(s.root, s.stack[n - 1].path, Dir(c0));
    } else {
      StoreItemsCons(s, m, ks, n, c0);
    }
  }

  /** The first entry's block, then the rest of the entries. */
  lemma {:induction false} StoreItemsCons(s: State, m: map<string, Node>, ks: seq<string>, n: nat, c0: map<string, Node>)
    requires OpenAt(s, n) && ks != []
    requires Lookup(s.root, s.stack[n - 1].path) == Some(Dir(c0))
    requires forall i | 0 <= i < |ks| :: ks[i] in m && NameFits(ks[i])
    requires Fits(m)
    ensures var r := Fold(s, Items(m, ks, s.stack[n - 1].depth));
      && OpenAt(r, n)
      && r.stack[..n] == s.stack[..n]
      && r.root == ReplaceAt(s.root, s.stack[n - 1].path, Dir(c0 + Restrict(m, ks)))
    decreases Dir(m), |ks|, 3
  {
    var top := s.stack[n - 1];
    var c1 := c0[ks[0] := m[ks[0]]];
    var b := ItemBlock(m, ks, top.depth);
    var rest := Items(m, ks[1..], top.depth);
    assert Items(m, ks, top.depth) == b + rest;
    FoldAppend(s, b, rest);
    StoreItemBlock(s, m, ks, n, c0);
    var s2 := Fold(s, b);
    ReplaceAtFound(s.root, top.path, Dir(c1));
    assert s2.stack[n - 1] == top by {
      assert s2.stack[..n][n - 1] == s.stack[..n][n - 1];
    }
    StoreItems(s2, m, ks[1..], n, c1);
    ReplaceTwice(s.root, top.path, Dir(c1), Dir(c1 + Restrict(m, ks[1..])));
    RestrictCons(c0, m, ks);
  }

  /** Storing one entry's block adds that entry, with everything below it,
      to the open frame's folder. */
  lemma {:induction false} StoreItemBlock(s: State, m: map<string, Node>, ks: seq<string>, n: nat, c0: map<string, Node>)
    requires OpenAt(s, n)
    requires Lookup(s.root, s.stack[n - 1].path) == Some(Dir(c0))
    requires ks != [] && forall i | 0 <= i < |ks| :: ks[i] in m && NameFits(ks[i])
    requires Fits(m)
    ensures var r := Fold(s, ItemBlock(m, ks, s.stack[n - 1].depth));
      && OpenAt(r, n)
      && r.stack[..n] == s.stack[..n]
      && r.root == ReplaceAt(s.root, s.stack[n - 1].path, Dir(c0[ks[0] := m[ks[0]]]))
    decreases Dir(m), |ks|, 2
  {
    if m[ks[0]].File? {
      StoreFileBlock(s, m, ks, n, c0);
    } else {
      StoreFolderBlock(s, m, ks, n, c0);
    }
  }

  /** A file's block is its one line. */
  lemma StoreFileBlock(s: State, m: map<string, Node>, ks: seq<string>, n: nat, c0: map<string, Node>)
    requires OpenAt(s, n)
    requires Lookup(s.root, s.stack[n - 1].path) == Some(Dir(c0))
    requires ks != [] && forall i | 0 <= i < |ks| :: ks[i] in m && NameFits(ks[i])
    requires Fits(m) && m[ks[0]].File?
    ensures var r := Fold(s, ItemBlock(m, ks, s.stack[n - 1].depth));
      && OpenAt(r, n)
      && r.stack[..n] == s.stack[..n]
      && r.root == ReplaceAt(s.root, s.stack[n - 1].path, Dir(c0[ks[0] := m[ks[0]]]))
  {
    var top := s.stack[n - 1];
    var k := ks[0];
    var e := Entry(top.depth, k, false);
    StoreRenderedEntry(s, n, k, false, c0);
    var s1 := Store(s, e);
    assert Fold(s, [e]) == s1;
    assert ItemBlock(m, ks, top.depth) == [e];
    assert s1.stack[..n] == s.stack[..n];
  }

  /** A folder's block: its own line opens it, the lines below fill it. */
  lemma {:induction false} StoreFolderBlock(s: State, m: map<string, Node>, ks: seq<string>, n: nat, c0: map<string, Node>)
    requires OpenAt(s, n)
    requires Lookup(s.root, s.stack[n - 1].path) == Some(Dir(c0))
    requires ks != [] && forall i | 0 <= i < |ks| :: ks[i] in m && NameFits(ks[i])
    requires Fits(m) && m[ks[0]].Dir?
    ensures var r := Fold(s, ItemBlock(m, ks, s.stack[n - 1].depth));
      && OpenAt(r, n)
      && r.stack[..n] == s.stack[..n]
      && r.root == ReplaceAt(s.root, s.stack[n - 1].path, Dir(c0[ks[0] := m[ks[0]]]))
    decreases Dir(m), |ks|, 1
  {
    var top := s.stack[n - 1];
    var k := ks[0];
    var c := m[k].children;
    var e := Entry(top.depth, k, true);
    StoreRenderedEntry(s, n, k, true, c0);
    var s1 := Store(s, e);
    assert Fold(s, [e]) == s1;
    FitsBelow(m, k);
    var below := Items(c, NameOrder(c), top.depth + 1);
    ItemBlockOfFolder(m, ks, top.depth);
    FoldAppend(s, [e], below);
    StoreOpenedFolder(s, s1, m, ks, n, c0);
  }

  /** The entries below a folder, stored once its own entry has opened it
      empty one level deeper, fill that folder. */
  lemma {:induction false} StoreOpenedFolder(s: State, s1: State, m: map<string, Node>, ks: seq<string>,
                                             n: nat, c0: map<string, Node>)
    requires OpenAt(s, n) && Valid(s1)
    requires Lookup(s.root, s.stack[n - 1].path) == Some(Dir(c0))
    requires ks != [] && forall i | 0 <= i < |ks| :: ks[i] in m && NameFits(ks[i])
    requires Fits(m) && m[ks[0]].Dir?
    requires var c := m[ks[0]].children;
      Fits(c) && forall i | 0 <= i < |NameOrder(c)| :: NameOrder(c)[i] in c && NameFits(NameOrder(c)[i])
    requires var top := s.stack[n - 1];
      && s1.root == ReplaceAt(s.root, top.path, Dir(c0[ks[0] := Dir(map[])]))
      && s1.stack == s.stack[..n] + [Frame(top.depth + 1, top.path + [ks[0]])]
    ensures var c := m[ks[0]].children;
      var r := Fold(s1, Items(c, NameOrder(c), s.stack[n - 1].depth + 1));
      && OpenAt(r, n)
      && r.stack[..n] == s.stack[..n]
      && r.root == ReplaceAt(s.root, s.stack[n - 1].path, Dir(c0[ks[0] := m[ks[0]]]))
    decreases Dir(m), |ks|, 0
  {
    var top := s.stack[n - 1];
    var k := ks[0];
    var c := m[k].children;
    var f := Frame(top.depth + 1, top.path + [k]);
    var cx := c0[k := Dir(map[])];
    assert s1.stack[n] == f;
    assert s1.stack[n - 1] == top;
    LookupReplaceAt(s.root, top.path, Dir(cx), top.path + [k]);
    assert (top.path + [k])[|top.path|..] == [k];
    assert Lookup(s1.root, f.path) == Some(Dir(map[]));
    StoreItems(s1, c, NameOrder(c), n + 1, map[]);
    var r := Fold(s1, Items(c, NameOrder(c), top.depth + 1));
    RestrictAll(c, NameOrder(c));
    ReplaceInside(s.root, top.path, cx, k, Dir(c));
    assert Dir(c) == m[k];
    UpdateTwice(c0, k, Dir(map[]), m[k]);
    PrefixOfPrefix(r.stack, s1.stack, n);
    assert s1.stack[..n] == s.stack[..n];
  }

  lemma PrefixOfPrefix<T>(a: seq<T>, b: seq<T>, n: nat)
    requires n < |a| && n < |b| && a[..n + 1] == b[..n + 1]
    ensures a[..n] == b[..n] && a[n] == b[n]
  {
    assert a[..n] == a[..n + 1][..n];
    assert b[..n] == b[..n + 1][..n];
    assert a[n] == a[..n + 1][n];
  }

  lemma UpdateTwice(c: map<string, Node>, k: string, x: Node, y: Node)
    ensures c[k := x][k := y] == c[k := y]
  {
  }

  /** The names `ks` cover the whole folder. */
  lemma RestrictAll(m: map<string, Node>, ks: seq<string>)
    requires forall k | k in m :: k in ks
    ensures map[] + Restrict(m, ks) == m
  {
  }

  /** Taking the first name of `ks` into the folder, then the rest. */
  lemma RestrictCons(c0: map<string, Node>, m: map<string, Node>, ks: seq<string>)
    requires ks != [] && ks[0] in m
    ensures c0[ks[0] := m[ks[0]]] + Restrict(m, ks[1..]) == c0 + Restrict(m, ks)
  {
  }

  /** Storing one entry at the level of the open frame `n - 1`: it goes into
      that frame's folder, every deeper frame is popped, and a folder is
      opened one level deeper. */
  lemma StoreRenderedEntry(s: State, n: nat, k: string, isDir: bool, c0: map<string, Node>)
    requires OpenAt(s, n) && !EndsInSlash(k)
    requires Lookup(s.root, s.stack[n - 1].path) == Some(Dir(c0))
    ensures var top := s.stack[n - 1];
      var r := Store(s, Entry(top.depth, k, isDir));
      && r.root == ReplaceAt(s.root, top.path, Dir(c0[k := if isDir then Dir(map[]) else File]))
      && r.stack == s.stack[..n] + (if isDir then [Frame(top.depth + 1, top.path + [k])] else [])
  {
    var top := s.stack[n - 1];
    PopToExact(s.stack, top.depth, n);
    assert ParentPath(s.stack[..n]) == top.path;
    StoreIs(s, Entry(top.depth, k, isDir));
    InsertAtIsReplace(s.root, top.path, k, if isDir then Dir(map[]) else File);
  }

  /** `ReplaceAt` on a path that reaches something. */
  lemma ReplaceAtFound(n: Node, p: Path, x: Node)
    requires Lookup(n, p).Some?
    ensures Lookup(ReplaceAt(n, p, x), p) == Some(x)
  {
  }

  // ---------------------------------------------------------------------
  // The round trip

  /** The listing of a hierarchy, joined into text, parses back to that
      hierarchy under its root name. */
  lemma ParseListing(root: string, m: map<string, Node>)
    requires RootFits(root) && Fits(m)
    ensures ParseTree(JoinLines(Listing(root, m))) == map[root := Dir(m)]
  {
    var ls := Listing(root, m);
    ListingReadsBack(root, m);
    assert ParseTree(JoinLines(ls)) == ParseLines(ls);
    RootLineReadsBack(root);
    ReadRenderedEntries(m, NameOrder(m), "", 0);
    assert ls[1..] == Entries(m, NameOrder(m), "");
    var es := Items(m, NameOrder(m), 0);
    assert ReadEntries(ls[1..]) == es;
    var s := Initial();
    StoreItems(s, m, NameOrder(m), 1, map[]);
    RestrictAll(m, NameOrder(m));
  }

  /** Splitting and trimming the joined listing gives its lines back. */
  lemma ListingReadsBack(root: string, m: map<string, Node>)
    requires RootFits(root) && Fits(m)
    ensures NonBlankLines(JoinLines(Listing(root, m))) == Listing(root, m)
  {
    var entries := Entries(m, NameOrder(m), "");
    var ls := Listing(root, m);
    EntriesAreCleanLines(m, NameOrder(m), "");
    assert CleanLine(root + "/") by {
      var r := root + "/";
      forall j | 0 <= j < |r| ensures r[j] !in LineBreaks {
        if j < |root| { assert r[j] == root[j]; }
      }
    }
    CleanLinesAppend([root + "/"], entries);
    SplitJoin(ls);
    KeepNonBlankFixed(ls);
  }

  /** The root line gives the root name back. */
  lemma RootLineReadsBack(root: string)
    requires RootFits(root)
    ensures RootName(root + "/") == root
  {
    StripTwiceAppend(root, '/', Whitespace, {'/'});
  }
}

=== FILE: text.dfy ===
/** The small part of Python's `str` behaviour that the listing parser relies
    on: `strip`/`rstrip` with and without an explicit character set, the
    blank-line test `not line.strip()`, and `splitlines`. */
module Text {

  /** The code points for which Python's `str.isspace()` holds: U+0009 to
      U+000D, U+001C to U+001F, the space, U+0085, U+00A0, U+1680, U+2000 to
      U+200A, U+2028, U+2029, U+202F, U+205F and U+3000. */
  predicate IsSpace(c: char)
  {
    || '\t' <= c <= '\r'
    || '\U{1C}' <= c <= '\U{1F}'
    || c == ' ' || c == '\U{85}' || c == '\U{A0}' || c == '\U{1680}'
    || '\U{2000}' <= c <= '\U{200A}'
    || c == '\U{2028}' || c == '\U{2029}' || c == '\U{202F}' || c == '\U{205F}' || c == '\U{3000}'
  }

  /** The characters `strip()` and `rstrip()` remove when given no argument. */
  const Whitespace: set<char> := set c: char | '\t' <= c <= '\U{3000}' && IsSpace(c)

  /** The code points at which `str.splitlines()` ends a line: U+000A to
      U+000D, U+001C to U+001E, U+0085, U+2028 and U+2029. */
  predicate IsLineBreak(c: char)
  {
    || '\n' <= c <= '\r'
    || '\U{1C}' <= c <= '\U{1E}'
    || c == '\U{85}' || c == '\U{2028}' || c == '\U{2029}'
  }

  const LineBreaks: set<char> := set c: char | '\n' <= c <= '\U{2029}' && IsLineBreak(c)

  /** `s.rstrip(cs)`: the longest prefix of `s` that does not end in `cs`. */
  function StripEnd(s: string, cs: set<char>): (r: string)
    ensures r <= s
    ensures r == [] || r[|r| - 1] !in cs
    ensures forall i | |r| <= i < |s| :: s[i] in cs
    decreases |s|
  {
    if s != [] && s[|s| - 1] in cs then StripEnd(s[..|s| - 1], cs) else s
  }

  /** `s.lstrip(cs)`: the longest suffix of `s` that does not start in `cs`. */
  function StripStart(s: string, cs: set<char>): (r: string)
    ensures |r| <= |s| && r == s[|s| - |r|..]
    ensures r == [] || r[0] !in cs
    ensures forall i | 0 <= i < |s| - |r| :: s[i] in cs
    decreases |s|
  {
    if s != [] && s[0] in cs then StripStart(s[1..], cs) else s
  }

  /** `s.strip(cs)`: `s` without its leading and trailing run of `cs`. */
  function Strip(s: string, cs: set<char>): (r: string)
    ensures |r| <= |s|
    ensures r == [] || (r[0] !in cs && r[|r| - 1] !in cs)
  {
    StripStart(StripEnd(s, cs), cs)
  }

  /** A string that does not end in `cs` is its own `rstrip`, one that does
      not start in `cs` is its own `lstrip`, and one that does neither is its
      own `strip`. */
  lemma StripFixed(s: string, cs: set<char>)
    ensures (s == [] || s[|s| - 1] !in cs) ==> StripEnd(s, cs) == s
    ensures (s == [] || s[0] !in cs) ==> StripStart(s, cs) == s
    ensures (s == [] || (s[0] !in cs && s[|s| - 1] !in cs)) ==> Strip(s, cs) == s
  {
  }

  /** Every character of `s[lo..hi]` is in `cs`. */
  predicate AllIn(s: string, lo: nat, hi: nat, cs: set<char>)
    requires lo <= hi <= |s|
  {
    forall k | lo <= k < hi :: s[k] in cs
  }

  /** `strip(cs)` keeps a slice of its input: everything cut off before and
      after the slice is in `cs`. */
  lemma StripSlice(s: string, cs: set<char>) returns (i: nat, j: nat)
    ensures i <= j <= |s| && Strip(s, cs) == s[i..j]
    ensures AllIn(s, 0, i, cs) && AllIn(s, j, |s|, cs)
  {
    var e := StripEnd(s, cs);
    j := EndSlice(s, cs);
    i := StartSlice(e, cs);
    DropOfTake(s, e, i, j);
    PrefixAllIn(s, e, i, j, cs);
  }

  /** `rstrip(cs)` is the prefix `s[..j]`, and `s[j..]` is all in `cs`. */
  lemma EndSlice(s: string, cs: set<char>) returns (j: nat)
    ensures j <= |s| && StripEnd(s, cs) == s[..j] && AllIn(s, j, |s|, cs)
  {
    j := |StripEnd(s, cs)|;
  }

  /** `lstrip(cs)` is the suffix `e[i..]`, and `e[..i]` is all in `cs`. */
  lemma StartSlice(e: string, cs: set<char>) returns (i: nat)
    ensures i <= |e| && StripStart(e, cs) == e[i..] && AllIn(e, 0, i, cs)
  {
    i := |e| - |StripStart(e, cs)|;
  }

  /** What holds of `e[..i]` holds of `s[..i]` when `e` is a prefix of `s`. */
  lemma PrefixAllIn(s: string, e: string, i: nat, j: nat, cs: set<char>)
    requires i <= j <= |s| && e == s[..j] && AllIn(e, 0, i, cs)
    ensures AllIn(s, 0, i, cs)
  {
    forall k | 0 <= k < i
      ensures s[k] in cs
    {
      assert s[k] == e[k];
    }
  }

  /** Dropping from the prefix `e == s[..j]` gives a slice of `s`. */
  lemma DropOfTake(s: string, e: string, i: nat, j: nat)
    requires i <= j <= |s| && e == s[..j]
    ensures e[i..] == s[i..j]
  {
    forall k | 0 <= k < j - i
      ensures e[i..][k] == s[i..j][k]
    {
      assert e[i + k] == s[i + k];
    }
  }

  /** Stripping a string that ends with one character of `ds` after a last
      character outside `ds`, and that starts outside both sets, first with
      `cs` (which does not hold that final character) and then with `ds`,
      gives back the string without its final character. */
  lemma StripTwiceAppend(k: string, c: char, cs: set<char>, ds: set<char>)
    requires k != [] && k[0] !in cs && k[0] !in ds && k[|k| - 1] !in ds
    requires c !in cs && c in ds
    ensures Strip(Strip(k + [c], cs), ds) == k
  {
    var s := k + [c];
    assert s[0] == k[0] && s[|s| - 1] == c;
    StripFixed(s, cs);
    assert Strip(s, cs) == s;
    StripEndAppend(k, c, ds);
    StripFixed(k, ds);
  }

  /** `rstrip(ds)` of `k + [c]` with `c` in `ds` and `k` not ending in `ds` is `k`. */
  lemma StripEndAppend(k: string, c: char, ds: set<char>)
    requires k == [] || k[|k| - 1] !in ds
    requires c in ds
    ensures StripEnd(k + [c], ds) == k
  {
    var s := k + [c];
    assert s[|s| - 1] == c;
    assert s[..|s| - 1] == k;
    StripFixed(k, ds);
  }

  /** Two strips in a row keep nested slices of the input: the first cuts off
      characters of `cs`, the second characters of `ds`. */
  lemma StripTwiceSlice(s: string, cs: set<char>, ds: set<char>) returns (i: nat, a: nat, b: nat, j: nat)
    ensures i <= a <= b <= j <= |s|
    ensures Strip(s, cs) == s[i..j] && Strip(Strip(s, cs), ds) == s[a..b]
    ensures AllIn(s, 0, i, cs) && AllIn(s, j, |s|, cs)
    ensures AllIn(s, i, a, ds) && AllIn(s, b, j, ds)
  {
    i, j := StripSlice(s, cs);
    var t := Strip(s, cs);
    var a', b' := StripSlice(t, ds);
    a, b := i + a', i + b';
    NestedSlice(s, t, Strip(t, ds), ds, i, j, a', b', a, b);
    assert t == s[i..j];
    assert Strip(t, ds) == s[a..b];
  }

  /** A slice `t[a'..b']` of the slice `t == s[i..j]` is the slice
      `s[i + a'..i + b']`, and what `t` has around it, `s` has too. */
  lemma NestedSlice(s: string, t: string, u: string, ds: set<char>,
                    i: nat, j: nat, a': nat, b': nat, a: nat, b: nat)
    requires i <= j <= |s| && t == s[i..j]
    requires a' <= b' <= |t| && u == t[a'..b'] && a == i + a' && b == i + b'
    requires AllIn(t, 0, a', ds) && AllIn(t, b', |t|, ds)
    ensures u == s[a..b]
    ensures AllIn(s, i, a, ds) && AllIn(s, b, j, ds)
  {
    forall k | 0 <= k < b' - a'
      ensures u[k] == s[a..b][k]
    {
      assert u[k] == t[a' + k] == s[a + k];
    }
    forall k | i <= k < a
      ensures s[k] in ds
    {
      assert s[k] == t[k - i];
    }
    forall k | b <= k < j
      ensures s[k] in ds
    {
      assert s[k] == t[k - i];
    }
  }

  /** Python's `not line.strip()`: the line holds whitespace only. */
  predicate IsBlank(line: string)
  {
    forall i | 0 <= i < |line| :: line[i] in Whitespace
  }

  /** A line is blank exactly when stripping whitespace leaves nothing. */
  lemma BlankIffStripsToEmpty(line: string)
    ensures IsBlank(line) <==> Strip(line, Whitespace) == []
  {
    if Strip(line, Whitespace) == [] {
      var e := StripEnd(line, Whitespace);
      assert StripStart(e, Whitespace) == [];
      assert e == [];
    }
  }

  /** `text` cut at every line-boundary character. A `\r\n` pair, a final
      terminator and the empty text give extra empty pieces where Python's
      `splitlines()` gives none; the listing parser drops blank pieces, so
      the two agree on every non-blank line and its order. */
  function SplitLines(text: string): (lines: seq<string>)
    ensures |lines| >= 1
    ensures forall i, j | 0 <= i < |lines| && 0 <= j < |lines[i]| :: lines[i][j] !in LineBreaks
    decreases |text|
  {
    if text == [] then [[]]
    else
      var rest := SplitLines(text[1..]);
      if text[0] in LineBreaks then [[]] + rest
      else [[text[0]] + rest[0]] + rest[1..]
  }

  /** A line-boundary character ends one piece and starts the next, so the
      text on either side of it splits independently. */
  lemma {:induction false} SplitAtBreak(a: string, c: char, b: string)
    requires c in LineBreaks
    ensures SplitLines(a + [c] + b) == SplitLines(a) + SplitLines(b)
    decreases |a|
  {
    var s := a + [c] + b;
    if a == [] {
      assert s[0] == c && s[1..] == b;
    } else {
      var tail := a[1..] + [c] + b;
      assert s[0] == a[0] && s[1..] == tail;
      SplitAtBreak(a[1..], c, b);
      var p, q := SplitLines(a[1..]), SplitLines(b);
      if a[0] in LineBreaks {
        assert [[]] + (p + q) == ([[]] + p) + q;
      } else {
        ExtendFirst([a[0]], p, q);
      }
    }
  }

  /** Extending the first piece commutes with appending more pieces. */
  lemma ExtendFirst(h: string, p: seq<string>, q: seq<string>)
    requires p != []
    ensures [h + (p + q)[0]] + (p + q)[1..] == ([h + p[0]] + p[1..]) + q
  {
    assert (p + q)[0] == p[0];
    assert (p + q)[1..] == p[1..] + q;
  }

  /** Text without a line-boundary character is a single piece. */
  lemma {:induction false} SplitNoBreak(line: string)
    requires forall i | 0 <= i < |line| :: line[i] !in LineBreaks
    ensures SplitLines(line) == [line]
    decreases |line|
  {
    if line != [] {
      SplitNoBreak(line[1..]);
      assert [line[0]] + line[1..] == line;
    }
  }

  /** Lines joined back with a `\n` between consecutive ones. */
  function JoinLines(lines: seq<string>): string
  {
    if lines == [] then []
    else if |lines| == 1 then lines[0]
    else lines[0] + "\n" + JoinLines(lines[1..])
  }

  /** Splitting undoes joining when no line holds a boundary character. */
  lemma {:induction false} SplitJoin(lines: seq<string>)
    requires |lines| >= 1
    requires forall i, j | 0 <= i < |lines| && 0 <= j < |lines[i]| :: lines[i][j] !in LineBreaks
    ensures SplitLines(JoinLines(lines)) == lines
    decreases |lines|, |lines[0]|
  {
    var l := lines[0];
    if l == [] {
      if |lines| > 1 {
        assert JoinLines(lines) == "\n" + JoinLines(lines[1..]);
        assert JoinLines(lines)[1..] == JoinLines(lines[1..]);
        SplitJoin(lines[1..]);
        assert [[]] + lines[1..] == lines;
      }
    } else {
      var tail := [l[1..]] + lines[1..];
      assert tail[1..] == lines[1..];
      assert JoinLines(lines) == [l[0]] + JoinLines(tail) by {
        if |lines| == 1 {
        } else {
          assert JoinLines(tail) == l[1..] + "\n" + JoinLines(lines[1..]);
        }
      }
      assert JoinLines(lines)[1..] == JoinLines(tail);
      SplitJoin(tail);
      assert JoinLines(lines)[0] == l[0] && l[0] !in LineBreaks;
      assert [l[0]] + tail[0] == l;
      assert [[l[0]] + tail[0]] + tail[1..] == lines;
    }
  }

  /** A line that is not blank and has no trailing whitespace. */
  predicate Trimmed(line: string)
  {
    line != [] && line[|line| - 1] !in Whitespace
  }

  /** The non-blank lines of `lines`, in order, each right-trimmed. */
  function KeepNonBlank(lines: seq<string>): (r: seq<string>)
    ensures |r| <= |lines|
    ensures forall i | 0 <= i < |r| :: Trimmed(r[i])
  {
    if lines == [] then []
    else KeepLine(lines[0]) + KeepNonBlank(lines[1..])
  }

  /** What the filter keeps of one line: nothing, or the line right-trimmed. */
  function KeepLine(line: string): (r: seq<string>)
    ensures |r| <= 1
    ensures forall i | 0 <= i < |r| :: Trimmed(r[i])
  {
    if IsBlank(line) then []
    else
      var l := StripEnd(line, Whitespace);
      assert l != [];
      [l]
  }

  /** The listing's lines as the parser sees them: `splitlines()`, with blank
      lines dropped and each kept line right-trimmed. */
  function NonBlankLines(text: string): (lines: seq<string>)
    ensures forall i | 0 <= i < |lines| :: Trimmed(lines[i])
  {
    KeepNonBlank(SplitLines(text))
  }

  /** Text made of whitespace alone has no non-blank line. */
  lemma WhitespaceHasNoLines(text: string)
    requires forall i | 0 <= i < |text| :: text[i] in Whitespace
    ensures NonBlankLines(text) == []
  {
    var ls := SplitLines(text);
    SplitKeepsChars(text);
    AllBlankDropped(ls);
  }

  /** Every character of a piece returned by `SplitLines` comes from the text. */
  lemma {:induction false} SplitKeepsChars(text: string)
    ensures forall i, j | 0 <= i < |SplitLines(text)| && 0 <= j < |SplitLines(text)[i]| ::
      SplitLines(text)[i][j] in multiset(text)
    decreases |text|
  {
    if text != [] {
      SplitKeepsChars(text[1..]);
      assert text == [text[0]] + text[1..];
      assert multiset(text) == multiset{text[0]} + multiset(text[1..]);
    }
  }

  lemma {:induction false} AllBlankDropped(lines: seq<string>)
    requires forall i | 0 <= i < |lines| :: IsBlank(lines[i])
    ensures KeepNonBlank(lines) == []
  {
    if lines != [] {
      AllBlankDropped(lines[1..]);
    }
  }

  /** A single line is dropped when blank and otherwise kept right-trimmed. */
  lemma KeepNonBlankOne(l: string)
    ensures KeepNonBlank([l]) == if IsBlank(l) then [] else [StripEnd(l, Whitespace)]
  {
    assert [l][1..] == [];
  }

  /** Filtering works line by line: the kept lines of `a + b` are those of
      `a` followed by those of `b`. */
  lemma {:induction false} KeepNonBlankAppend(a: seq<string>, b: seq<string>)
    ensures KeepNonBlank(a + b) == KeepNonBlank(a) + KeepNonBlank(b)
    decreases |a|
  {
    if a == [] {
      assert a + b == b;
    } else {
      var ab := a + b;
      assert ab[0] == a[0] && ab[1..] == a[1..] + b;
      KeepNonBlankAppend(a[1..], b);
      var x, y, z := KeepLine(a[0]), KeepNonBlank(a[1..]), KeepNonBlank(b);
      assert KeepNonBlank(ab) == x + (y + z);
      assert x + (y + z) == (x + y) + z;
    }
  }

  /** Lines that are already non-blank and right-trimmed pass through unchanged. */
  lemma {:induction false} KeepNonBlankFixed(lines: seq<string>)
    requires forall i | 0 <= i < |lines| :: Trimmed(lines[i])
    ensures KeepNonBlank(lines) == lines
  {
    if lines != [] {
      KeepNonBlankFixed(lines[1..]);
      var l := lines[0];
      assert !IsBlank(l) by { assert l[|l| - 1] !in Whitespace; }
      StripFixed(l, Whitespace);
    }
  }
}

=== FILE: tree.dfy ===
/** The hierarchy shared by the parser and the differ: a folder maps each
    child name to a node, a file carries nothing. Python stores a folder as a
    `dict` and a file as `None`; the two are told apart by a constructor here. */
module Tree {

  datatype Option<+T> = None | Some(value: T)

  datatype Node = File | Dir(children: map<string, Node>)

  /** A sequence of child names leading down from some node. */
  type Path = seq<string>

  /** The node reached from `n` by following `p`, if every step exists. */
  function Lookup(n: Node, p: Path): (r: Option<Node>)
    ensures p == [] ==> r == Some(n)
    ensures p != [] && n.File? ==> r == None
    decreases p
  {
    if p == [] then Some(n)
    else match n
      case File => None
      case Dir(m) => if p[0] in m then Lookup(m[p[0]], p[1..]) else None
  }

  /** `p` leads from `n` to a folder. */
  predicate IsDirAt(n: Node, p: Path)
  {
    Lookup(n, p).Some? && Lookup(n, p).value.Dir?
  }

  /** `n` with the node at `p` replaced by `x`; the folders on the way keep
      every other child. */
  function ReplaceAt(n: Node, p: Path, x: Node): (r: Node)
    requires Lookup(n, p).Some?
    ensures Lookup(r, p) == Some(x)
    ensures p != [] ==> r.Dir? && r.children.Keys == n.children.Keys
    decreases p
  {
    if p == [] then x
    else Dir(n.children[p[0] := ReplaceAt(n.children[p[0]], p[1..], x)])
  }

  /** What a lookup sees after `ReplaceAt`: below `p` the new node, on a path
      that leaves `p` the old tree, strictly above `p` a folder. */
  lemma {:induction false} LookupReplaceAt(n: Node, p: Path, x: Node, q: Path)
    requires Lookup(n, p).Some?
    ensures p <= q ==> Lookup(ReplaceAt(n, p, x), q) == Lookup(x, q[|p|..])
    ensures q < p ==> IsDirAt(ReplaceAt(n, p, x), q)
    ensures !(p <= q) && !(q <= p) ==> Lookup(ReplaceAt(n, p, x), q) == Lookup(n, q)
    decreases p
  {
    if p != [] && q != [] {
      var m := n.children;
      if q[0] == p[0] {
        LookupReplaceAt(m[p[0]], p[1..], x, q[1..]);
        assert p <= q ==> q[|p|..] == q[1..][|p| - 1..];
        assert q < p ==> q[1..] < p[1..];
        assert !(p <= q) && !(q <= p) ==> !(p[1..] <= q[1..]) && !(q[1..] <= p[1..]);
      }
    } else if p == [] {
      assert q[|p|..] == q;
    }
  }

  /** Replacing a node by itself changes nothing. */
  lemma {:induction false} ReplaceSame(n: Node, p: Path, x: Node)
    requires Lookup(n, p) == Some(x)
    ensures ReplaceAt(n, p, x) == n
    decreases p
  {
    if p != [] {
      ReplaceSame(n.children[p[0]], p[1..], x);
      assert n.children[p[0] := n.children[p[0]]] == n.children;
    }
  }

  /** Two replacements at the same path: the later one wins. */
  lemma {:induction false} ReplaceTwice(n: Node, p: Path, x: Node, y: Node)
    requires Lookup(n, p).Some?
    ensures ReplaceAt(ReplaceAt(n, p, x), p, y) == ReplaceAt(n, p, y)
    decreases p
  {
    if p != [] {
      ReplaceTwice(n.children[p[0]], p[1..], x, y);
      var r := ReplaceAt(n, p, x);
      assert r.children[p[0]] == ReplaceAt(n.children[p[0]], p[1..], x);
      assert r.children[p[0] := ReplaceAt(r.children[p[0]], p[1..], y)]
          == n.children[p[0] := ReplaceAt(n.children[p[0]], p[1..], y)];
    }
  }

  /** A replacement inside a freshly placed folder is a replacement of that
      folder's child. */
  lemma {:induction false} ReplaceInside(n: Node, p: Path, c: map<string, Node>, k: string, y: Node)
    requires Lookup(n, p).Some?
    requires k in c
    ensures Lookup(ReplaceAt(n, p, Dir(c)), p + [k]).Some?
    ensures ReplaceAt(ReplaceAt(n, p, Dir(c)), p + [k], y) == ReplaceAt(n, p, Dir(c[k := y]))
    decreases p
  {
    LookupReplaceAt(n, p, Dir(c), p + [k]);
    assert (p + [k])[|p|..] == [k];
    if p != [] {
      ReplaceInside(n.children[p[0]], p[1..], c, k, y);
      assert (p + [k])[1..] == p[1..] + [k];
      var r := ReplaceAt(n, p, Dir(c));
      assert r.children[p[0]] == ReplaceAt(n.children[p[0]], p[1..], Dir(c));
    }
  }

  /** `parent[name] = child` on the folder at `p`: the child is placed (an
      existing entry of that name, file or folder, is overwritten). */
  function InsertAt(n: Node, p: Path, name: string, child: Node): (r: Node)
    requires IsDirAt(n, p)
    ensures Lookup(r, p + [name]) == Some(child)
    ensures IsDirAt(r, p)
  {
    var d := Lookup(n, p).value;
    var r := ReplaceAt(n, p, Dir(d.children[name := child]));
    LookupReplaceAt(n, p, Dir(d.children[name := child]), p + [name]);
    assert (p + [name])[|p|..] == [name];
    r
  }

  lemma InsertAtIsReplace(n: Node, p: Path, name: string, child: Node)
    requires IsDirAt(n, p)
    ensures InsertAt(n, p, name, child) == ReplaceAt(n, p, Dir(Lookup(n, p).value.children[name := child]))
  {
  }

  /** A lookup after `InsertAt` sees the child below `p + [name]`, a folder at
      every strict prefix of it, and the old tree everywhere else. */
  lemma InsertAtLookup(n: Node, p: Path, name: string, child: Node, q: Path)
    requires IsDirAt(n, p)
    ensures p + [name] <= q ==> Lookup(InsertAt(n, p, name, child), q) == Lookup(child, q[|p| + 1..])
    ensures q < p + [name] ==> IsDirAt(InsertAt(n, p, name, child), q)
    ensures !(p + [name] <= q) && !(q <= p + [name]) ==>
      Lookup(InsertAt(n, p, name, child), q) == Lookup(n, q)
  {
    var d := Lookup(n, p).value;
    var x := Dir(d.children[name := child]);
    LookupReplaceAt(n, p, x, q);
    if p + [name] <= q {
      assert p <= q;
      var t := q[|p|..];
      assert t[0] == name && t[1..] == q[|p| + 1..];
    } else if q < p + [name] {
      if q < p {
      } else {
        assert q == p;
      }
    } else if !(q <= p + [name]) {
      if p <= q {
        var t := q[|p|..];
        assert t != [] && t[0] != name;
        assert Lookup(x, t) == Lookup(d, t);
        LookupAlongPrefix(n, p, q);
      }
    }
  }

  /** Lookup through a prefix: first reach `p`, then follow the rest. */
  lemma {:induction false} LookupAlongPrefix(n: Node, p: Path, q: Path)
    requires Lookup(n, p).Some?
    requires p <= q
    ensures Lookup(n, q) == Lookup(Lookup(n, p).value, q[|p|..])
    decreases p
  {
    if p != [] {
      LookupAlongPrefix(n.children[p[0]], p[1..], q[1..]);
      assert q[1..][|p| - 1..] == q[|p|..];
    }
  }
}
